=== FILE: README.md ===
# c3cbot first-run setup wizard, modelled in Dafny

When a c3cbot profile has no `config.json`, the bootstrap script
(`src/index.ts`) runs an interactive setup wizard. The wizard asks:

- which chat platforms to log in to: Discord, Telegram or Facebook, as many
  accounts as wanted;
- the token and feature switches for each Discord account;
- for each Facebook account, whether to import an existing session file and
  whether to add an email/password fallback login;
- which operator ids to add.

At the end it writes the configuration document. Its listener list holds the
accounts, renumbered by position. The document also fixes a JSON database and
the command-handler language, and lists the operators.

This project models the wizard as a pure state machine:

- `Wizard.Step` consumes one typed answer.
- `Wizard.Run` consumes a sequence of answers.
- `Wizard.Setup` yields either the finished document or the question still
  waiting for an answer, in both cases with the session files copied so far.

The module layout:

| module | file | contents |
|---|---|---|
| `Options` | `options.dfy` | the optional-value datatype |
| `Text` | `text.dfy` | JavaScript `trim`, `toLowerCase` as far as comparisons with lower-case ASCII words go, and the leading-`~` rewrite of paths |
| `Answers` | `answers.dfy` | the yes/no classifier and the account-type menu |
| `Configuration` | `config.dfy` | the login records of the three platforms, the session-file name, renumbering and assembly of the document |
| `Wizard` | `wizard.dfy` | the questions, the state machine, `Run` and `Setup` |
| `Transitions` | `transitions.dfy` | one lemma per question, naming the state after an answer |
| `Invariant` | `invariant.dfy` | the invariant the wizard keeps, and what it guarantees of the finished document |
| `WizardProperties` | `wizard_properties.dfy` | rejected answers, the session-import rules, the operator loop, and the algebra of `Run` |
| `Dialogues` | `dialogues.dfy` | whole account dialogues, from the menu to "add another account?", stated in terms of what the user typed |

Two things come from outside the answers. They are fields of `Wizard.Env`:

- `isFile` says whether a path names an existing regular file. It stands in
  for the `existsSync`/`statSync` checks on the resolved path.
- `sessionId` gives the random hex id drawn for the Facebook account that
  will sit at a given listener position.

`Env.home` is the home directory that a leading `~` stands for.

This project models the first-run setup wizard of `src/index.ts`.

## Model

| member | source | states |
|---|---|---|
| Text.Trim | src/index.ts:85 | the result has no white space at either end, and it is the input with only white space removed around it |
| Text.TrimIff | src/index.ts:85 | `trim(s) == x` exactly when `x` has no white space at its ends and `s` is `x` with white space around it (a characterisation independent of how trimming scans) |
| Text.NormalizeIs | src/index.ts:85 | an answer's trimmed, lower-cased form equals a small ASCII word exactly when the answer is that word in any capitalisation, with white space around it |
| Text.SingleLetterSpellings | src/index.ts:100-102 | the only strings that lower-case to "y" (or "n") are "y" and "Y" (or "n" and "N") |
| Text.ExpandTilde | src/index.ts:209 | a `~` in first position is replaced by the home directory, once; any other string is unchanged |
| Text.ExpandTildeIdempotent | src/index.ts:209 | expanding an already expanded path changes nothing, provided the home directory is non-empty and does not start with `~` |
| Answers.ParseYesNo | src/index.ts:98-109 | has no contract of its own; `Answers.YesNoIff` and `Answers.YesNoLetters` characterise it: yes exactly for a lone y or Y with white space around it, no exactly for a lone n or N, rejected otherwise |
| Answers.YesNoIff | src/index.ts:98-109 | a yes/no answer is accepted as yes exactly when it is a padded "y" in any capitalisation, as no exactly when it is a padded "n", and is rejected otherwise |
| Answers.YesNoLetters | src/index.ts:98-109 | the accepted answers are exactly a single y, Y, n or N with only white space around it |
| Answers.PaddedLetter | src/index.ts:100-102 | a padded spelling of a one-letter word is that letter or its capital, with white space around it |
| Answers.ParseAccountType | src/index.ts:81-88 | has no contract of its own; `Answers.AccountTypeIff` and `Answers.AccountTypeRejected` characterise it: a platform exactly when the answer spells that platform's menu word in any capitalisation with white space around it, rejected when it spells none |
| Answers.AccountTypeIff | src/index.ts:81-88 | the menu selects a platform exactly when the answer is a padded spelling of that platform's menu word |
| Answers.AccountTypeRejected | src/index.ts:284-288 | the menu rejects an answer exactly when it spells none of "discord", "telegram" and "facebook" |
| Answers.KelvinSignSpellsFacebook | src/index.ts:85 | "FACEBOO" followed by U+212A KELVIN SIGN, with white space around it, selects Facebook, because `toLowerCase` maps that sign to `k` |
| Configuration.Intents | src/index.ts:156-159 | the three message intents are present exactly when message commands are on, "DirectMessages" exactly when DMs are accepted, in the fixed order and each at most once |
| Configuration.NewDiscordLogin | src/index.ts:150-161 | `disableSlashCommand` is the negation of the slash-command answer; an application id is present exactly when slash commands are on, and it is the one typed; the intents follow the two answers in the fixed order |
| Configuration.NewFacebookLogin | src/index.ts:272-283 | email and password are present exactly when fallback is on; a two-factor secret is present exactly when fallback is on and the typed secret is not empty; the appstate location is always the account's `fbstate_<id>.json` |
| Configuration.AppstateNameRoundTrip | src/index.ts:224 | session ids and `fbstate_<id>.json` names correspond one to one |
| Configuration.BuiltLoginsWellFormed | src/index.ts:150-283 | logins built from trimmed answers have trimmed fields, an application id exactly when slash commands are on, ordered intents, a non-empty two-factor secret if any, and an fbstate session-file name |
| Configuration.AssignIds | src/index.ts:364-367 | after the renumbering loop every account's id is its position and its login is unchanged |
| Configuration.Assemble | src/index.ts:370-389 | the listener keeps every account in order with id = position; the operators are as entered; a single `db_json` database on `database_default.json` with id 1 is the default; `crashOnDefaultDatabaseFail` is true; the command-handler language is "en-US" |
| Configuration.AssembledIdsArePositions | src/index.ts:364-367 | the listener ids are exactly 0 to n-1 |
| Wizard.YesNoQuestionsSayYN | src/index.ts:82-346 | exactly the questions whose prompt ends in "(y/n): " are read as yes/no answers |
| Wizard.Push | src/index.ts:150-162 | adding an account appends exactly one account with the built login, keeps everything collected before it, and moves on to "add another account?" |
| Wizard.StepDiscord | src/index.ts:88-162 | no Discord question imports a file or touches the operators; every question but the last (direct messages) leaves the accounts as they were; the last may append one account, keeping the earlier ones, and then asks "add another account?" |
| Wizard.FinishDiscord | src/index.ts:150-162 | a rejected reply to the direct-messages question changes nothing; an accepted one appends exactly one account whose login is built from the token, slash-command choice, application id and message-command choice stored in the phase, with DMs as replied; it imports nothing and moves on to "add another account?" |
| Wizard.StepFacebook | src/index.ts:180-283 | no Facebook question other than the path imports a file or touches the operators; only the fallback and two-factor questions may append an account, exactly one, keeping the earlier ones, and then ask "add another account?"; every other question leaves the accounts as they were |
| Wizard.ReadSessionPath | src/index.ts:200-227 | reading a session path leaves the accounts and operators as they were and only ever appends to the imports; the wizard either asks for the path again or moves on to the fallback question of the same session id |
| Wizard.Step | src/index.ts:77-362 | one answer appends at most one account, and only on the way to "add another account?"; earlier accounts and imports are never changed; a finished wizard ignores further answers |
| Wizard.Run | src/index.ts:77-362 | has no contract of its own; `WizardProperties.RunAppend`, `WizardProperties.AccountsOnlyAppended` and `WizardProperties.DoneIsFinal` characterise it: answers are read strictly in order, accounts collected earlier stay in place, and a finished wizard reads nothing more |
| Wizard.Setup | src/index.ts:69-390 | has no contract of its own; `Invariant.SetupDocumentSound` characterises the document it returns once the wizard is done, and `WizardProperties.CopiesStayReported` the session files it reports, finished or not |
| Invariant.StepPreservesInv | src/index.ts:77-362 | every answer keeps the invariant: a non-empty account list after the account loop, no operators before the operator loop, trimmed stored answers and operators, well-formed logins, Facebook session ids drawn for their positions, and an imported session file behind every Facebook login without fallback |
| Invariant.RunPreservesInv | src/index.ts:77-362 | any sequence of answers keeps the invariant |
| Invariant.SetupDocumentSound | src/index.ts:304-389 | a finished document has a non-empty listener list with id = position, well-formed logins, Facebook logins named after the session id of their position whose session file was imported whenever they lack fallback credentials, and trimmed operator ids |
| WizardProperties.RejectedAnswerIgnored | src/index.ts:98-109 | an answer a yes/no question or the account-type menu rejects leaves the whole state unchanged |
| WizardProperties.RejectedAnswerSkipped | src/index.ts:284-288 | a rejected answer can be dropped from the input without changing where the wizard ends up |
| WizardProperties.MissingSessionFileRepeats | src/index.ts:211-221 | a session path that does not name an existing regular file leaves the state unchanged |
| WizardProperties.FallbackOnlyAfterImport | src/index.ts:232-243 | the fallback question is reached only from the path question, only for an existing regular file, and only after that file is recorded as imported |
| WizardProperties.DeclinedImportForcesFallback | src/index.ts:232-243 | declining the import skips the fallback question and goes straight to the email, so fallback is forced on |
| WizardProperties.RunAppend | src/index.ts:77-362 | feeding answers in two parts ends where feeding them at once does |
| WizardProperties.DoneIsFinal | src/index.ts:369-389 | once the wizard is done it reads nothing more |
| WizardProperties.ImportsOnlyAppended | src/index.ts:200-227 | any sequence of answers keeps every session file already copied, in place |
| WizardProperties.CopiesStayReported | src/index.ts:224-225 | the session files reported after some answers, whether the wizard finished or is still waiting, are still reported, first and in order, after any further answers: a copy made before the input ends stays made |
| WizardProperties.AccountsOnlyAppended | src/index.ts:75-307 | any sequence of answers keeps every account already collected, in place |
| WizardProperties.OperatorDialogue | src/index.ts:333-362 | typing ids, each but the last followed by any spelling of yes to "add another operator?" and the last by a no, appends every id, trimmed and in entry order, and finishes |
| WizardProperties.DeclinedOperators | src/index.ts:309-324 | from any state that satisfies the invariant, a no to "add operators?" finishes the wizard with an empty operator list |
| WizardProperties.OperatorsEntered | src/index.ts:309-362 | from any state that satisfies the invariant, a yes to "add operators?" followed by the operator loop finishes the wizard with exactly the typed ids, trimmed and in entry order |
| Dialogues.YesNoBySpelling | src/index.ts:98-109 | at a yes/no question a lone y or Y, with any white space around it, takes the yes branch; a lone n or N takes the no branch; any other answer leaves the state as it was, so the question is asked again |
| Dialogues.DiscordAccountAdded | src/index.ts:88-162 | choosing "discord" and answering the Discord questions adds exactly one account after the existing ones; its login holds the trimmed token; slash commands are disabled exactly when the reply was not yes; the trimmed application id is present exactly after a yes; the three message intents are present exactly after a yes to message commands; "DirectMessages" is present exactly after a yes to DMs; the intents keep the fixed order |
| Dialogues.TelegramAccountAdded | src/index.ts:163-179 | choosing "telegram" and typing a token adds exactly one account after the existing ones, a Telegram login with the trimmed token |
| Dialogues.FacebookAccountAdded | src/index.ts:180-283 | choosing "facebook" and answering the Facebook questions adds exactly one account after the existing ones; its session file is `fbstate_<id>.json` for the id drawn for its position; fallback credentials are present exactly when the import was declined or the fallback accepted; they hold the trimmed email and password, and the trimmed two-factor secret exactly when it is not blank |
| Dialogues.FacebookSessionImported | src/index.ts:185-227 | a yes to the import copies the typed file, trimmed and with a leading `~` expanded, to `fbstate_<id>.json` for the new account; a no copies nothing |

## Left out

- Command-line option parsing (`src/index.ts:15-35`) is a thin wrapper over a library that is not part of this model.
- The profile directories and the `config.json` existence test (`src/index.ts:41-71`) are filesystem I/O. The model starts at the first question of the wizard.
- `readline` prompting and console messages are replaced by the answer sequence. When the input ends, `readline` closes, the pending question never resolves and the process ends without writing `config.json`. `Setup` reports the waiting question instead, together with the session files already copied.
- `crypto.randomBytes` (`src/index.ts:182`) becomes the `Env.sessionId` oracle, indexed by the listener position the account will take.
- `path.resolve` against the working directory and the `existsSync`/`statSync` checks are folded into the `Env.isFile` oracle, which receives the tilde-expanded path.
- The copy of the session file (`src/index.ts:224`) is recorded as an `Import` of source path and target name, not performed.
- Wizard.ReadSessionPath: the copy is assumed to succeed. In the program a failing `fs.copyFile` rejects the awaited promise and ends the script before `config.json` is written. The model always records the `Import` and may go on to a finished document.
- Wizard.ReadSessionPath: `Env.isFile` is one fixed predicate for the whole run, so a path rejected once is rejected on every retry. The program checks the file system again on every attempt (`src/index.ts:211-221`), so a file created between attempts would be accepted there.
- `JSON.stringify` and the file write (`src/index.ts:370`) are left out. The document is the `Configuration.Config` datatype.
- The `@nocom_bot/cli` import (`src/index.ts:1`) is never used by the wizard.
- Text.LowerChar: models `toLowerCase` only as far as equality with lower-case ASCII words is concerned. ASCII capitals and U+212A KELVIN SIGN become small letters, and every other code point is kept. Other code points lower-case to non-ASCII text, or to several code units, so none of them can take part in such an equality.
- Text.ExpandTilde: the home directory is inserted literally. `String.prototype.replace` would interpret `$&`, `$$` and similar patterns in it, and that is not modelled.
- Strings are sequences of Unicode scalar values rather than UTF-16 code units. Lone surrogates cannot be written.

=== FILE: answers.dfy ===
/**
 How the wizard classifies the two kinds of closed answers it asks for:
 yes/no questions and the account-type menu. Both compare the trimmed,
 lower-cased answer against fixed words; anything else is rejected and the
 question is asked again.
 */
module Answers {
  import opened Options
  import opened Text

  /** The chat platforms an account can be set up for. */
  datatype Platform = Discord | Telegram | Facebook

  /** The menu word that selects a platform. */
  function PlatformName(p: Platform): (w: string)
    ensures IsWord(w)
  {
    match p
    case Discord => "discord"
    case Telegram => "telegram"
    case Facebook => "facebook"
  }

  /** A yes/no answer: `Some(true)` for "y", `Some(false)` for "n", `None`
      for anything the question must be repeated on. */
  function ParseYesNo(answer: string): Option<bool> {
    var a := Normalize(answer);
    if a == "y" then Some(true)
    else if a == "n" then Some(false)
    else None
  }

  /** An account-type answer: the platform whose menu word it normalises to,
      or `None` when it names no platform. */
  function ParseAccountType(answer: string): Option<Platform> {
    var a := Normalize(answer);
    if a == "discord" then Some(Discord)
    else if a == "telegram" then Some(Telegram)
    else if a == "facebook" then Some(Facebook)
    else None
  }

  /** `c` alone, surrounded by white space. */
  ghost predicate PaddedChar(answer: string, c: char) {
    exists i :: PaddedCharAt(answer, i, c)
  }

  /** `c` at position `i`, with only white space before and after it. */
  predicate PaddedCharAt(answer: string, i: int, c: char) {
    0 <= i < |answer| && AllSpace(answer[..i]) && answer[i] == c && AllSpace(answer[i + 1..])
  }

  /** The user typed yes: a lone y or Y. */
  ghost predicate SaysYes(answer: string) {
    PaddedChar(answer, 'y') || PaddedChar(answer, 'Y')
  }

  /** The user typed no: a lone n or N. */
  ghost predicate SaysNo(answer: string) {
    PaddedChar(answer, 'n') || PaddedChar(answer, 'N')
  }

  /** A yes/no answer is yes exactly when it is a padded "y" in either case,
      no exactly when it is a padded "n", and rejected otherwise. */
  lemma YesNoIff(answer: string)
    ensures ParseYesNo(answer) == Some(true) <==> PaddedSpelling(answer, "y")
    ensures ParseYesNo(answer) == Some(false) <==> PaddedSpelling(answer, "n")
    ensures ParseYesNo(answer) == None <==> !PaddedSpelling(answer, "y") && !PaddedSpelling(answer, "n")
  {
    NormalizeIs(answer, "y");
    NormalizeIs(answer, "n");
  }

  lemma PaddedLetter(answer: string, c: char)
    requires 'a' <= c <= 'z' && c != 'k'
    ensures PaddedSpelling(answer, [c]) <==> PaddedChar(answer, c) || PaddedChar(answer, (c as int - 32) as char)
  {
    var C := (c as int - 32) as char;
    if PaddedSpelling(answer, [c]) {
      var i, j :| 0 <= i <= j <= |answer| && AllSpace(answer[..i]) && Lower(answer[i..j]) == [c] && AllSpace(answer[j..]);
      SingleLetterSpellings(answer[i..j], c);
      assert j == i + 1 && answer[i..j][0] == answer[i];
      assert PaddedCharAt(answer, i, answer[i]);
    }
    if PaddedChar(answer, c) {
      var i :| PaddedCharAt(answer, i, c);
      PaddedCharSpelled(answer, i, c);
    }
    if PaddedChar(answer, C) {
      var i :| PaddedCharAt(answer, i, C);
      PaddedCharSpelled(answer, i, c);
    }
  }

  lemma PaddedCharSpelled(answer: string, i: int, c: char)
    requires 'a' <= c <= 'z' && c != 'k'
    requires PaddedCharAt(answer, i, c) || PaddedCharAt(answer, i, (c as int - 32) as char)
    ensures PaddedSpelling(answer, [c])
  {
    assert answer[i..i + 1] == [answer[i]];
    SingleLetterSpellings(answer[i..i + 1], c);
  }

  /** The only accepted yes/no answers are a single y, Y, n or N with
      optional white space around it. */
  lemma YesNoLetters(answer: string)
    ensures ParseYesNo(answer) == Some(true) <==> SaysYes(answer)
    ensures ParseYesNo(answer) == Some(false) <==> SaysNo(answer)
  {
    YesNoIff(answer);
    PaddedLetter(answer, 'y');
    PaddedLetter(answer, 'n');
  }

  /** A yes is read as yes. */
  lemma ReadsYes(answer: string)
    requires SaysYes(answer)
    ensures ParseYesNo(answer) == Some(true)
  {
    YesNoLetters(answer);
  }

  /** A no is read as no. */
  lemma ReadsNo(answer: string)
    requires SaysNo(answer)
    ensures ParseYesNo(answer) == Some(false)
  {
    YesNoLetters(answer);
  }

  /** The menu selects platform `p` exactly when the answer is a padded
      spelling of its name. */
  lemma AccountTypeIff(answer: string, p: Platform)
    ensures ParseAccountType(answer) == Some(p) <==> PaddedSpelling(answer, PlatformName(p))
  {
    assert ParseAccountType(answer) == Some(p) <==> Normalize(answer) == PlatformName(p);
    NormalizeIs(answer, PlatformName(p));
  }

  /** The menu rejects an answer exactly when it spells none of the three
      platform names. */
  lemma AccountTypeRejected(answer: string)
    ensures ParseAccountType(answer) == None <==>
              forall q: Platform :: !PaddedSpelling(answer, PlatformName(q))
  {
    forall q: Platform
      ensures ParseAccountType(answer) == Some(q) <==> PaddedSpelling(answer, PlatformName(q))
    {
      AccountTypeIff(answer, q);
    }
  }

  /** U+212A KELVIN SIGN lower-cases to `k`, so it spells the `k` of
      "facebook" and the menu accepts it, whatever white space surrounds it. */
  lemma KelvinSignSpellsFacebook(before: string, after: string)
    requires AllSpace(before) && AllSpace(after)
    ensures ParseAccountType(before + "FACEBOO\U{212A}" + after) == Some(Facebook)
  {
    var x := "FACEBOO\U{212A}";
    var a := before + x + after;
    assert a[..|before|] == before && a[|before|..|before| + 8] == x && a[|before| + 8..] == after;
    KelvinSignLowers();
    PaddedIsNormalized(a, "facebook", |before|, |before| + 8);
  }

  lemma KelvinSignLowers()
    ensures Lower("FACEBOO\U{212A}") == "facebook"
  {
    var x := "FACEBOO\U{212A}";
    assert LowerChar(x[7]) == 'k';
  }
}

=== FILE: config.dfy ===
/**
 The configuration document the setup wizard writes: one account record per
 chat platform login, renumbered by position, plus the fixed database and
 module settings and the list of operator ids.
 */
module Configuration {
  import opened Options
  import opened Text

  /** Gateway intents requested when regular message commands are enabled. */
  const MessageIntents: seq<string> := ["Guilds", "GuildMessages", "MessageContent"]
  /** Gateway intent requested when commands are accepted from direct messages. */
  const DirectMessageIntents: seq<string> := ["DirectMessages"]

  /** Email/password fallback login of a Facebook account. */
  datatype Credentials = Credentials(email: string, password: string, twoFactorSecret: Option<string>)

  /** The `loginData` object of an account, one variant per platform. */
  datatype LoginData =
    | DiscordLogin(token: string, applicationId: Option<string>, disableSlashCommand: bool, intents: seq<string>)
    | TelegramLogin(botToken: string)
    | FacebookLogin(fallback: Option<Credentials>, appstateLocation: string)

  /** One entry of the `listener` list. */
  datatype Account = Account(login: LoginData, id: int) {

    /** The listener plugin that serves this account. */
    function ShortName(): string {
      match login
      case DiscordLogin(_, _, _, _) => "int_discord"
      case TelegramLogin(_) => "int_telegram"
      case FacebookLogin(_, _) => "int_facebook"
    }
  }

  /** One entry of the `databases` list. */
  datatype Database = Database(shortName: string, id: int, file: string)

  datatype Config = Config(
    listener: seq<Account>,
    databases: seq<Database>,
    defaultDatabase: int,
    crashOnDefaultDatabaseFail: bool,
    commandHandlerLanguage: string,
    operators: seq<string>)

  /** The single JSON-file database every new profile starts with. */
  const DefaultDatabase := Database("db_json", 1, "database_default.json")

  /** Position of an intent in the order the wizard lists intents in; 4 for
      a string that is not one of them. */
  function IntentRank(intent: string): nat {
    if intent == "Guilds" then 0
    else if intent == "GuildMessages" then 1
    else if intent == "MessageContent" then 2
    else if intent == "DirectMessages" then 3
    else 4
  }

  /** Every intent is known and they appear in the fixed order, each at most
      once. */
  predicate InIntentOrder(intents: seq<string>) {
    && (forall i :: 0 <= i < |intents| ==> IntentRank(intents[i]) < 4)
    && (forall i, j :: 0 <= i < j < |intents| ==> IntentRank(intents[i]) < IntentRank(intents[j]))
  }

  /** The intents requested for the two message-command answers. */
  function Intents(messageCommands: bool, directMessages: bool): (intents: seq<string>)
    ensures forall k :: 0 <= k < |MessageIntents| ==> (MessageIntents[k] in intents <==> messageCommands)
    ensures "DirectMessages" in intents <==> directMessages
    ensures InIntentOrder(intents)
  {
    var intents := (if messageCommands then MessageIntents else [])
                   + (if directMessages then DirectMessageIntents else []);
    if messageCommands && directMessages then
      assert intents == ["Guilds", "GuildMessages", "MessageContent", "DirectMessages"];
      intents
    else if messageCommands then
      assert intents == MessageIntents;
      intents
    else if directMessages then
      assert intents == DirectMessageIntents;
      intents
    else
      intents
  }

  /** The Discord login the wizard builds from its four answers. */
  function NewDiscordLogin(token: string, slashCommands: bool, applicationId: string,
                   messageCommands: bool, directMessages: bool): (l: LoginData)
    ensures l.DiscordLogin? && l.token == token
    ensures l.disableSlashCommand == !slashCommands
    ensures l.applicationId.Some? <==> slashCommands
    ensures slashCommands ==> l.applicationId.value == applicationId
    ensures forall k :: 0 <= k < |MessageIntents| ==> (MessageIntents[k] in l.intents <==> messageCommands)
    ensures "DirectMessages" in l.intents <==> directMessages
    ensures InIntentOrder(l.intents)
  {
    DiscordLogin(token, if slashCommands then Some(applicationId) else None, !slashCommands,
                 Intents(messageCommands, directMessages))
  }

  /** The name of the session file a Facebook account logs in from, inside
      the profile's data directory. */
  function AppstateName(sessionId: string): string {
    "fbstate_" + sessionId + ".json"
  }

  predicate IsAppstateName(location: string) {
    |location| >= 13 && location[..8] == "fbstate_" && location[|location| - 5..] == ".json"
  }

  /** Recovers the session id from a session-file name. */
  function SessionIdOf(location: string): string
    requires IsAppstateName(location)
  {
    location[8..|location| - 5]
  }

  /** Session-file names and session ids are in one-to-one correspondence. */
  lemma AppstateNameRoundTrip(sessionId: string, location: string)
    ensures IsAppstateName(AppstateName(sessionId))
    ensures SessionIdOf(AppstateName(sessionId)) == sessionId
    ensures IsAppstateName(location) ==> AppstateName(SessionIdOf(location)) == location
  {
    var n := AppstateName(sessionId);
    assert n[..8] == "fbstate_" && n[|n| - 5..] == ".json" && n[8..|n| - 5] == sessionId;
    if IsAppstateName(location) {
      assert location == location[..8] + location[8..|location| - 5] + location[|location| - 5..];
    }
  }

  /** The Facebook login the wizard builds: credentials only with fallback,
      a two-factor secret only when one was typed. */
  function NewFacebookLogin(sessionId: string, emailPasswordFallback: bool,
                    email: string, password: string, twoFactorSecret: string): (l: LoginData)
    ensures l.FacebookLogin?
    ensures l.fallback.Some? <==> emailPasswordFallback
    ensures emailPasswordFallback ==> l.fallback.value.email == email && l.fallback.value.password == password
    ensures (l.fallback.Some? && l.fallback.value.twoFactorSecret.Some?) <==> emailPasswordFallback && twoFactorSecret != ""
    ensures l.fallback.Some? && l.fallback.value.twoFactorSecret.Some? ==> l.fallback.value.twoFactorSecret.value == twoFactorSecret
    ensures l.appstateLocation == AppstateName(sessionId)
  {
    var secret := if twoFactorSecret != "" then Some(twoFactorSecret) else None;
    FacebookLogin(if emailPasswordFallback then Some(Credentials(email, password, secret)) else None,
                  AppstateName(sessionId))
  }

  /** What every login the wizard builds satisfies: typed strings are
      trimmed, a Discord application id is present exactly when slash
      commands are on, intents follow the fixed order, a Facebook two-factor
      secret is never empty and the session file has the fbstate name. */
  predicate WellFormed(l: LoginData) {
    match l
    case DiscordLogin(token, applicationId, disableSlashCommand, intents) =>
      && IsTrimmed(token)
      && (applicationId.Some? <==> !disableSlashCommand)
      && (applicationId.Some? ==> IsTrimmed(applicationId.value))
      && InIntentOrder(intents)
    case TelegramLogin(botToken) => IsTrimmed(botToken)
    case FacebookLogin(fallback, appstateLocation) =>
      && IsAppstateName(appstateLocation)
      && (fallback.Some? ==>
            && IsTrimmed(fallback.value.email)
            && IsTrimmed(fallback.value.password)
            && (fallback.value.twoFactorSecret.Some? ==>
                  fallback.value.twoFactorSecret.value != "" && IsTrimmed(fallback.value.twoFactorSecret.value)))
  }

  /** Logins built from trimmed answers are well formed. */
  lemma BuiltLoginsWellFormed(token: string, slashCommands: bool, applicationId: string,
                              messageCommands: bool, directMessages: bool,
                              sessionId: string, fallback: bool, email: string, password: string, secret: string)
    requires IsTrimmed(token) && IsTrimmed(applicationId)
    requires IsTrimmed(email) && IsTrimmed(password) && IsTrimmed(secret)
    ensures WellFormed(NewDiscordLogin(token, slashCommands, applicationId, messageCommands, directMessages))
    ensures WellFormed(TelegramLogin(token))
    ensures WellFormed(NewFacebookLogin(sessionId, fallback, email, password, secret))
  {
    AppstateNameRoundTrip(sessionId, "");
  }

  /** The accounts with each id replaced by the account's position. */
  function Renumbered(accounts: seq<Account>): seq<Account> {
    seq(|accounts|, i requires 0 <= i < |accounts| => accounts[i].(id := i))
  }

  /** The loop that gives every account its position as id. */
  method AssignIds(accounts: seq<Account>) returns (numbered: seq<Account>)
    ensures |numbered| == |accounts|
    ensures forall i :: 0 <= i < |accounts| ==> numbered[i].id == i && numbered[i].login == accounts[i].login
    ensures numbered == Renumbered(accounts)
  {
    numbered := accounts;
    var i := 0;
    while i < |numbered|
      invariant 0 <= i <= |numbered| == |accounts|
      invariant forall k :: 0 <= k < i ==> numbered[k] == accounts[k].(id := k)
      invariant forall k :: i <= k < |numbered| ==> numbered[k] == accounts[k]
    {
      numbered := numbered[i := numbered[i].(id := i)];
      i := i + 1;
    }
  }

  /** The default database id names a database of the document. */
  predicate DefaultDatabaseListed(c: Config) {
    exists k :: 0 <= k < |c.databases| && c.databases[k].id == c.defaultDatabase
  }

  /** The document written at the end of the wizard. */
  function Assemble(accounts: seq<Account>, operators: seq<string>): (c: Config)
    ensures |c.listener| == |accounts|
    ensures forall i :: 0 <= i < |accounts| ==> c.listener[i].id == i && c.listener[i].login == accounts[i].login
    ensures c.operators == operators
    ensures DefaultDatabaseListed(c) && |c.databases| == 1 && c.defaultDatabase == 1
    ensures c.databases[0].shortName == "db_json" && c.databases[0].file == "database_default.json"
    ensures c.crashOnDefaultDatabaseFail
    ensures c.commandHandlerLanguage == "en-US"
  {
    var c := Config(Renumbered(accounts), [DefaultDatabase], DefaultDatabase.id, true, "en-US", operators);
    assert c.databases[0].id == c.defaultDatabase;
    c
  }

  /** Listener ids are distinct and cover exactly 0 .. n-1. */
  lemma AssembledIdsArePositions(accounts: seq<Account>, operators: seq<string>, id: int)
    ensures var c := Assemble(accounts, operators);
            (exists i :: 0 <= i < |c.listener| && c.listener[i].id == id) <==> 0 <= id < |accounts|
  {
    var c := Assemble(accounts, operators);
    if 0 <= id < |accounts| {
      assert c.listener[id].id == id;
    }
  }
}

=== FILE: dialogues.dfy ===
/**
 Whole account dialogues: from the account-type menu to "add another
 account?", what the recorded login holds in terms of what the user typed.
 Replies are stated by their spelling — a lone y or Y is a yes, a lone n or
 N a no, with any white space around them.
 */
module Dialogues {
  import opened Options
  import opened Text
  import opened Answers
  import opened Configuration
  import opened Wizard
  import opened Transitions
  import opened WizardProperties

  /** A yes/no question goes to its yes successor on a yes, to its no
      successor on a no, and stays put on anything else. */
  lemma YesNoBySpelling(s: State, answer: string, yes: State, no: State)
    ensures SaysYes(answer) ==> YesNo(s, answer, yes, no) == yes
    ensures SaysNo(answer) ==> YesNo(s, answer, yes, no) == no
    ensures !SaysYes(answer) && !SaysNo(answer) ==> YesNo(s, answer, yes, no) == s
  {
    YesNoLetters(answer);
  }

  /** One answer, then the rest. */
  lemma Then(env: Env, s: State, x: string, rest: seq<string>, t: State)
    requires Step(env, s, x) == t
    ensures Run(env, s, [x] + rest) == Run(env, t, rest)
  {
    RunCons(env, s, x, rest);
  }

  // Discord

  /** The answers of one Discord account: the menu choice, the bot token,
      the slash-command reply, the application id only after a yes to slash
      commands, then the message-command and direct-message replies. */
  function DiscordAnswers(menu: string, token: string, slash: string, appId: string, msg: string, dm: string): seq<string> {
    [menu, token, slash] + (if ParseYesNo(slash) == Some(true) then [appId] else []) + [msg, dm]
  }

  /** A Discord account typed in full is recorded with the trimmed token,
      slash commands and their application id exactly when the user said
      yes to them, the message intents exactly when the user said yes to
      message commands and the direct-message intent exactly when the user
      said yes to commands in DMs. */
  lemma DiscordAccountAdded(env: Env, s: State, menu: string, token: string, slash: string, appId: string, msg: string, dm: string)
    requires s.phase == AskAccountType && PaddedSpelling(menu, "discord")
    requires SaysYes(slash) || SaysNo(slash)
    requires SaysYes(msg) || SaysNo(msg)
    requires SaysYes(dm) || SaysNo(dm)
    ensures var t := Run(env, s, DiscordAnswers(menu, token, slash, appId, msg, dm));
            && t.phase == AskAddAnotherAccount && t.operators == s.operators && t.imports == s.imports
            && |t.accounts| == |s.accounts| + 1 && t.accounts[..|s.accounts|] == s.accounts
    ensures var l := Run(env, s, DiscordAnswers(menu, token, slash, appId, msg, dm)).accounts[|s.accounts|].login;
            && l.DiscordLogin? && l.token == Trim(token)
            && l.disableSlashCommand == !SaysYes(slash)
            && (l.applicationId.Some? <==> SaysYes(slash))
            && (SaysYes(slash) ==> l.applicationId.value == Trim(appId))
            && (forall k :: 0 <= k < |MessageIntents| ==> (MessageIntents[k] in l.intents <==> SaysYes(msg)))
            && ("DirectMessages" in l.intents <==> SaysYes(dm))
            && InIntentOrder(l.intents)
  {
    AccountTypeIff(menu, Discord);
    YesNoLetters(slash);
    YesNoLetters(msg);
    YesNoLetters(dm);
    DiscordRun(env, s, menu, token, slash, appId, msg, dm);
  }

  /** The Discord dialogue with the replies as the classifier reads them. */
  lemma DiscordRun(env: Env, s: State, menu: string, token: string, slash: string, appId: string, msg: string, dm: string)
    requires s.phase == AskAccountType && ParseAccountType(menu) == Some(Discord)
    requires ParseYesNo(slash).Some? && ParseYesNo(msg).Some? && ParseYesNo(dm).Some?
    ensures var b := ParseYesNo(slash).value;
            Run(env, s, DiscordAnswers(menu, token, slash, appId, msg, dm))
            == Push(s, NewDiscordLogin(Trim(token), b, if b then Trim(appId) else "", ParseYesNo(msg).value, ParseYesNo(dm).value))
  {
    var b := ParseYesNo(slash).value;
    var tail := (if b then [appId] else []) + [msg, dm];
    DiscordAnswersSplit(menu, token, slash, appId, msg, dm);
    DiscordHead(env, s, menu, token, [slash] + tail);
    DiscordSlash(env, s, Trim(token), slash, appId, [msg, dm]);
    DiscordTail(env, s, Trim(token), b, if b then Trim(appId) else "", msg, dm);
  }

  lemma DiscordAnswersSplit(menu: string, token: string, slash: string, appId: string, msg: string, dm: string)
    ensures DiscordAnswers(menu, token, slash, appId, msg, dm)
            == [menu] + ([token] + ([slash] + ((if ParseYesNo(slash) == Some(true) then [appId] else []) + [msg, dm])))
  {
  }

  /** Choosing Discord and typing the token leads to the slash-command
      question. */
  lemma DiscordHead(env: Env, s: State, menu: string, token: string, rest: seq<string>)
    requires s.phase == AskAccountType && ParseAccountType(menu) == Some(Discord)
    ensures Run(env, s, [menu] + ([token] + rest)) == Run(env, s.(phase := AskSlashCommands(Trim(token))), rest)
  {
    AccountTypeStep(env, s, menu);
    Then(env, s, menu, [token] + rest, s.(phase := AskDiscordToken));
    DiscordTokenStep(env, s.(phase := AskDiscordToken), token);
    Then(env, s.(phase := AskDiscordToken), token, rest, s.(phase := AskSlashCommands(Trim(token))));
  }

  /** The slash-command reply, and the application id after a yes. */
  lemma DiscordSlash(env: Env, s: State, token: string, slash: string, appId: string, rest: seq<string>)
    requires ParseYesNo(slash).Some?
    ensures var b := ParseYesNo(slash).value;
            Run(env, s.(phase := AskSlashCommands(token)), [slash] + ((if b then [appId] else []) + rest))
            == Run(env, s.(phase := AskMessageCommands(token, b, if b then Trim(appId) else "")), rest)
  {
    if ParseYesNo(slash).value {
      SlashAccepted(env, s, token, slash, appId, rest);
    } else {
      SlashDeclined(env, s, token, slash, rest);
      assert [] + rest == rest;
    }
  }

  lemma SlashAccepted(env: Env, s: State, token: string, slash: string, appId: string, rest: seq<string>)
    requires ParseYesNo(slash) == Some(true)
    ensures Run(env, s.(phase := AskSlashCommands(token)), [slash] + ([appId] + rest))
            == Run(env, s.(phase := AskMessageCommands(token, true, Trim(appId))), rest)
  {
    var s2 := s.(phase := AskSlashCommands(token));
    var s3 := s.(phase := AskApplicationId(token));
    SlashCommandsStep(env, s2, slash);
    Then(env, s2, slash, [appId] + rest, s3);
    ApplicationIdStep(env, s3, appId);
    Then(env, s3, appId, rest, s.(phase := AskMessageCommands(token, true, Trim(appId))));
  }

  lemma SlashDeclined(env: Env, s: State, token: string, slash: string, rest: seq<string>)
    requires ParseYesNo(slash) == Some(false)
    ensures Run(env, s.(phase := AskSlashCommands(token)), [slash] + rest)
            == Run(env, s.(phase := AskMessageCommands(token, false, "")), rest)
  {
    var s2 := s.(phase := AskSlashCommands(token));
    SlashCommandsStep(env, s2, slash);
    Then(env, s2, slash, rest, s.(phase := AskMessageCommands(token, false, "")));
  }

  /** The two intent replies finish the account. */
  lemma DiscordTail(env: Env, s: State, token: string, slash: bool, appId: string, msg: string, dm: string)
    requires ParseYesNo(msg).Some? && ParseYesNo(dm).Some?
    ensures Run(env, s.(phase := AskMessageCommands(token, slash, appId)), [msg, dm])
            == Push(s, NewDiscordLogin(token, slash, appId, ParseYesNo(msg).value, ParseYesNo(dm).value))
  {
    var s4 := s.(phase := AskMessageCommands(token, slash, appId));
    MessageCommandsStep(env, s4, msg);
    assert [msg, dm] == [msg] + [dm];
    Then(env, s4, msg, [dm], s.(phase := AskDirectMessages(token, slash, appId, ParseYesNo(msg).value)));
    DirectMessagesRun(env, s, token, slash, appId, ParseYesNo(msg).value, dm);
  }

  lemma DirectMessagesRun(env: Env, s: State, token: string, slash: bool, appId: string, msg: bool, dm: string)
    requires ParseYesNo(dm).Some?
    ensures Run(env, s.(phase := AskDirectMessages(token, slash, appId, msg)), [dm])
            == Push(s, NewDiscordLogin(token, slash, appId, msg, ParseYesNo(dm).value))
  {
    var s5 := s.(phase := AskDirectMessages(token, slash, appId, msg));
    DirectMessagesStep(env, s5, dm);
    RunOne(env, s5, dm);
    PushAnyPhase(s, s5.phase, NewDiscordLogin(token, slash, appId, msg, ParseYesNo(dm).value));
  }

  // Telegram

  /** A Telegram account is recorded with the trimmed bot token. */
  lemma TelegramAccountAdded(env: Env, s: State, menu: string, token: string)
    requires s.phase == AskAccountType && PaddedSpelling(menu, "telegram")
    ensures var t := Run(env, s, [menu, token]);
            && t.phase == AskAddAnotherAccount && t.operators == s.operators && t.imports == s.imports
            && |t.accounts| == |s.accounts| + 1 && t.accounts[..|s.accounts|] == s.accounts
            && t.accounts[|s.accounts|].login == TelegramLogin(Trim(token))
  {
    AccountTypeIff(menu, Telegram);
    AccountTypeStep(env, s, menu);
    TelegramTokenStep(env, s.(phase := AskTelegramToken), token);
    RunPair(env, s, menu, token);
  }

  // Facebook

  /** The answers of one Facebook account: the menu choice and the import
      reply; after a yes, the session path and the fallback reply; the
      email, password and two-factor secret unless the session was imported
      and the fallback declined. */
  function FacebookAnswers(menu: string, importReply: string, path: string, fallbackReply: string,
                           email: string, password: string, secret: string): seq<string>
  {
    var imported := ParseYesNo(importReply) == Some(true);
    [menu, importReply]
    + (if imported then [path, fallbackReply] else [])
    + (if imported && ParseYesNo(fallbackReply) == Some(false) then [] else [email, password, secret])
  }

  /** A Facebook account typed in full is recorded under the session file
      named after the id drawn for its position. A yes to the import copies
      the given file, with a leading tilde expanded, to that name. Fallback
      credentials are recorded exactly when the import was declined or the
      fallback accepted; they hold the trimmed email and password, and the
      trimmed two-factor secret exactly when it is not blank. */
  lemma FacebookAccountAdded(env: Env, s: State, menu: string, importReply: string, path: string, fallbackReply: string,
                             email: string, password: string, secret: string)
    requires s.phase == AskAccountType && PaddedSpelling(menu, "facebook")
    requires SaysYes(importReply) || SaysNo(importReply)
    requires SaysYes(importReply) ==> env.isFile(ExpandTilde(Trim(path), env.home))
    requires SaysYes(importReply) ==> SaysYes(fallbackReply) || SaysNo(fallbackReply)
    ensures var t := Run(env, s, FacebookAnswers(menu, importReply, path, fallbackReply, email, password, secret));
            && t.phase == AskAddAnotherAccount && t.operators == s.operators
            && |t.accounts| == |s.accounts| + 1 && t.accounts[..|s.accounts|] == s.accounts
    ensures var l := Run(env, s, FacebookAnswers(menu, importReply, path, fallbackReply, email, password, secret)).accounts[|s.accounts|].login;
            && l.FacebookLogin? && l.appstateLocation == AppstateName(env.sessionId(|s.accounts|))
            && (l.fallback.Some? <==> SaysNo(importReply) || SaysYes(fallbackReply))
            && (l.fallback.Some? ==> l.fallback.value.email == Trim(email) && l.fallback.value.password == Trim(password))
            && (l.fallback.Some? ==> (l.fallback.value.twoFactorSecret.Some? <==> Trim(secret) != ""))
            && (l.fallback.Some? && l.fallback.value.twoFactorSecret.Some? ==> l.fallback.value.twoFactorSecret.value == Trim(secret))
  {
    AccountTypeIff(menu, Facebook);
    FacebookAccountChosen(env, s, menu, importReply, path, fallbackReply, email, password, secret);
  }

  /** The same, once the menu answer has been read as Facebook. */
  lemma FacebookAccountChosen(env: Env, s: State, menu: string, importReply: string, path: string, fallbackReply: string,
                              email: string, password: string, secret: string)
    requires s.phase == AskAccountType && ParseAccountType(menu) == Some(Facebook)
    requires SaysYes(importReply) || SaysNo(importReply)
    requires SaysYes(importReply) ==> env.isFile(ExpandTilde(Trim(path), env.home))
    requires SaysYes(importReply) ==> SaysYes(fallbackReply) || SaysNo(fallbackReply)
    ensures var t := Run(env, s, FacebookAnswers(menu, importReply, path, fallbackReply, email, password, secret));
            && t.phase == AskAddAnotherAccount && t.operators == s.operators
            && |t.accounts| == |s.accounts| + 1 && t.accounts[..|s.accounts|] == s.accounts
    ensures var l := Run(env, s, FacebookAnswers(menu, importReply, path, fallbackReply, email, password, secret)).accounts[|s.accounts|].login;
            && l.FacebookLogin? && l.appstateLocation == AppstateName(env.sessionId(|s.accounts|))
            && (l.fallback.Some? <==> SaysNo(importReply) || SaysYes(fallbackReply))
            && (l.fallback.Some? ==> l.fallback.value.email == Trim(email) && l.fallback.value.password == Trim(password))
            && (l.fallback.Some? ==> (l.fallback.value.twoFactorSecret.Some? <==> Trim(secret) != ""))
            && (l.fallback.Some? && l.fallback.value.twoFactorSecret.Some? ==> l.fallback.value.twoFactorSecret.value == Trim(secret))
  {
    YesNoLetters(importReply);
    YesNoLetters(fallbackReply);
    var id := env.sessionId(|s.accounts|);
    var imported := ParseYesNo(importReply).value;
    var fallback := !imported || ParseYesNo(fallbackReply).value;
    var base := if imported then s.(imports := s.imports + [Import(ExpandTilde(Trim(path), env.home), AppstateName(id))]) else s;
    var login := if fallback then NewFacebookLogin(id, true, Trim(email), Trim(password), Trim(secret))
                 else NewFacebookLogin(id, false, "", "", "");
    FacebookRun(env, s, menu, importReply, path, fallbackReply, email, password, secret);
    assert imported <==> SaysYes(importReply);
    assert fallback <==> SaysNo(importReply) || SaysYes(fallbackReply);
    FacebookLoginFields(id, fallback, email, password, secret, login);
  }

  /** The login the Facebook dialogue builds. */
  lemma FacebookLoginFields(id: string, fallback: bool, email: string, password: string, secret: string, l: LoginData)
    requires l == if fallback then NewFacebookLogin(id, true, Trim(email), Trim(password), Trim(secret))
                  else NewFacebookLogin(id, false, "", "", "")
    ensures l.FacebookLogin? && l.appstateLocation == AppstateName(id)
    ensures l.fallback.Some? <==> fallback
    ensures l.fallback.Some? ==> l.fallback.value.email == Trim(email) && l.fallback.value.password == Trim(password)
    ensures l.fallback.Some? ==> (l.fallback.value.twoFactorSecret.Some? <==> Trim(secret) != "")
    ensures l.fallback.Some? && l.fallback.value.twoFactorSecret.Some? ==> l.fallback.value.twoFactorSecret.value == Trim(secret)
  {
  }

  /** A yes to the import copies the given file, with a leading tilde
      expanded, to the session-file name of the new account; a no copies
      nothing. */
  lemma FacebookSessionImported(env: Env, s: State, menu: string, importReply: string, path: string, fallbackReply: string,
                                email: string, password: string, secret: string)
    requires s.phase == AskAccountType && PaddedSpelling(menu, "facebook")
    requires SaysYes(importReply) || SaysNo(importReply)
    requires SaysYes(importReply) ==> env.isFile(ExpandTilde(Trim(path), env.home))
    requires SaysYes(importReply) ==> SaysYes(fallbackReply) || SaysNo(fallbackReply)
    ensures var t := Run(env, s, FacebookAnswers(menu, importReply, path, fallbackReply, email, password, secret));
            var location := AppstateName(env.sessionId(|s.accounts|));
            && (SaysYes(importReply) ==> t.imports == s.imports + [Import(ExpandTilde(Trim(path), env.home), location)])
            && (SaysNo(importReply) ==> t.imports == s.imports)
  {
    AccountTypeIff(menu, Facebook);
    FacebookSessionChosen(env, s, menu, importReply, path, fallbackReply, email, password, secret);
  }

  /** The same, once the menu answer has been read as Facebook. */
  lemma FacebookSessionChosen(env: Env, s: State, menu: string, importReply: string, path: string, fallbackReply: string,
                              email: string, password: string, secret: string)
    requires s.phase == AskAccountType && ParseAccountType(menu) == Some(Facebook)
    requires SaysYes(importReply) || SaysNo(importReply)
    requires SaysYes(importReply) ==> env.isFile(ExpandTilde(Trim(path), env.home))
    requires SaysYes(importReply) ==> SaysYes(fallbackReply) || SaysNo(fallbackReply)
    ensures var t := Run(env, s, FacebookAnswers(menu, importReply, path, fallbackReply, email, password, secret));
            var location := AppstateName(env.sessionId(|s.accounts|));
            && (SaysYes(importReply) ==> t.imports == s.imports + [Import(ExpandTilde(Trim(path), env.home), location)])
            && (SaysNo(importReply) ==> t.imports == s.imports)
  {
    YesNoLetters(importReply);
    YesNoLetters(fallbackReply);
    FacebookRun(env, s, menu, importReply, path, fallbackReply, email, password, secret);
  }

  /** The Facebook dialogue with the replies as the classifier reads them. */
  lemma FacebookRun(env: Env, s: State, menu: string, importReply: string, path: string, fallbackReply: string,
                    email: string, password: string, secret: string)
    requires s.phase == AskAccountType && ParseAccountType(menu) == Some(Facebook)
    requires ParseYesNo(importReply).Some?
    requires ParseYesNo(importReply) == Some(true) ==> env.isFile(ExpandTilde(Trim(path), env.home)) && ParseYesNo(fallbackReply).Some?
    ensures var id := env.sessionId(|s.accounts|);
            var imported := ParseYesNo(importReply).value;
            var fallback := !imported || ParseYesNo(fallbackReply).value;
            Run(env, s, FacebookAnswers(menu, importReply, path, fallbackReply, email, password, secret))
            == Push(if imported then s.(imports := s.imports + [Import(ExpandTilde(Trim(path), env.home), AppstateName(id))]) else s,
                    if fallback then NewFacebookLogin(id, true, Trim(email), Trim(password), Trim(secret))
                    else NewFacebookLogin(id, false, "", "", ""))
  {
    if ParseYesNo(importReply) == Some(false) {
      FacebookRunWithoutImport(env, s, menu, importReply, path, fallbackReply, email, password, secret);
    } else if ParseYesNo(fallbackReply) == Some(true) {
      FacebookRunWithFallback(env, s, menu, importReply, path, fallbackReply, email, password, secret);
    } else {
      FacebookRunSessionOnly(env, s, menu, importReply, path, fallbackReply, email, password, secret);
    }
  }

  /** Declining the import: the credentials are asked for and recorded. */
  lemma FacebookRunWithoutImport(env: Env, s: State, menu: string, importReply: string, path: string, fallbackReply: string,
                                 email: string, password: string, secret: string)
    requires s.phase == AskAccountType && ParseAccountType(menu) == Some(Facebook)
    requires ParseYesNo(importReply) == Some(false)
    ensures Run(env, s, FacebookAnswers(menu, importReply, path, fallbackReply, email, password, secret))
            == Push(s, NewFacebookLogin(env.sessionId(|s.accounts|), true, Trim(email), Trim(password), Trim(secret)))
  {
    var credentials := [email, password, secret];
    FacebookAnswersWithoutImport(menu, importReply, path, fallbackReply, email, password, secret);
    FacebookDeclinedImport(env, s, menu, importReply, credentials);
    CredentialsRun(env, s, env.sessionId(|s.accounts|), email, password, secret);
  }

  /** Importing a session file and accepting the fallback: the file is
      copied and the credentials recorded. */
  lemma FacebookRunWithFallback(env: Env, s: State, menu: string, importReply: string, path: string, fallbackReply: string,
                                email: string, password: string, secret: string)
    requires s.phase == AskAccountType && ParseAccountType(menu) == Some(Facebook)
    requires ParseYesNo(importReply) == Some(true) && env.isFile(ExpandTilde(Trim(path), env.home))
    requires ParseYesNo(fallbackReply) == Some(true)
    ensures var id := env.sessionId(|s.accounts|);
            Run(env, s, FacebookAnswers(menu, importReply, path, fallbackReply, email, password, secret))
            == Push(s.(imports := s.imports + [Import(ExpandTilde(Trim(path), env.home), AppstateName(id))]),
                    NewFacebookLogin(id, true, Trim(email), Trim(password), Trim(secret)))
  {
    var id := env.sessionId(|s.accounts|);
    var s3 := s.(phase := AskFallback(id), imports := s.imports + [Import(ExpandTilde(Trim(path), env.home), AppstateName(id))]);
    var credentials := [email, password, secret];
    FacebookAnswersWithFallback(menu, importReply, path, fallbackReply, email, password, secret);
    FacebookImport(env, s, menu, importReply, path, [fallbackReply] + credentials);
    FallbackAccepted(env, s3, fallbackReply, credentials);
    CredentialsRun(env, s3, id, email, password, secret);
    PushAnyPhase(s.(imports := s3.imports), s3.phase, NewFacebookLogin(id, true, Trim(email), Trim(password), Trim(secret)));
  }

  /** Importing a session file and declining the fallback: the file is
      copied and no credentials are recorded. */
  lemma FacebookRunSessionOnly(env: Env, s: State, menu: string, importReply: string, path: string, fallbackReply: string,
                               email: string, password: string, secret: string)
    requires s.phase == AskAccountType && ParseAccountType(menu) == Some(Facebook)
    requires ParseYesNo(importReply) == Some(true) && env.isFile(ExpandTilde(Trim(path), env.home))
    requires ParseYesNo(fallbackReply) == Some(false)
    ensures var id := env.sessionId(|s.accounts|);
            Run(env, s, FacebookAnswers(menu, importReply, path, fallbackReply, email, password, secret))
            == Push(s.(imports := s.imports + [Import(ExpandTilde(Trim(path), env.home), AppstateName(id))]),
                    NewFacebookLogin(id, false, "", "", ""))
  {
    var id := env.sessionId(|s.accounts|);
    var s3 := s.(phase := AskFallback(id), imports := s.imports + [Import(ExpandTilde(Trim(path), env.home), AppstateName(id))]);
    FacebookAnswersSessionOnly(menu, importReply, path, fallbackReply, email, password, secret);
    FacebookImport(env, s, menu, importReply, path, [fallbackReply]);
    FallbackDeclined(env, s3, fallbackReply);
    PushAnyPhase(s.(imports := s3.imports), s3.phase, NewFacebookLogin(id, false, "", "", ""));
  }

  lemma FacebookAnswersWithoutImport(menu: string, importReply: string, path: string, fallbackReply: string,
                                     email: string, password: string, secret: string)
    requires ParseYesNo(importReply) == Some(false)
    ensures FacebookAnswers(menu, importReply, path, fallbackReply, email, password, secret)
            == [menu] + ([importReply] + [email, password, secret])
  {
  }

  lemma FacebookAnswersWithFallback(menu: string, importReply: string, path: string, fallbackReply: string,
                                    email: string, password: string, secret: string)
    requires ParseYesNo(importReply) == Some(true) && ParseYesNo(fallbackReply) == Some(true)
    ensures FacebookAnswers(menu, importReply, path, fallbackReply, email, password, secret)
            == [menu] + ([importReply] + ([path] + ([fallbackReply] + [email, password, secret])))
  {
  }

  lemma FacebookAnswersSessionOnly(menu: string, importReply: string, path: string, fallbackReply: string,
                                   email: string, password: string, secret: string)
    requires ParseYesNo(importReply) == Some(true) && ParseYesNo(fallbackReply) == Some(false)
    ensures FacebookAnswers(menu, importReply, path, fallbackReply, email, password, secret)
            == [menu] + ([importReply] + ([path] + [fallbackReply]))
  {
  }

  /** Choosing Facebook, saying yes to the import and giving an existing
      file copies it under the account's session-file name and leads to the
      fallback question. */
  lemma FacebookImport(env: Env, s: State, menu: string, importReply: string, path: string, rest: seq<string>)
    requires s.phase == AskAccountType && ParseAccountType(menu) == Some(Facebook)
    requires ParseYesNo(importReply) == Some(true) && env.isFile(ExpandTilde(Trim(path), env.home))
    ensures var id := env.sessionId(|s.accounts|);
            Run(env, s, [menu] + ([importReply] + ([path] + rest)))
            == Run(env, s.(phase := AskFallback(id), imports := s.imports + [Import(ExpandTilde(Trim(path), env.home), AppstateName(id))]), rest)
  {
    var id := env.sessionId(|s.accounts|);
    var s1 := s.(phase := AskImportSession(id));
    var s2 := s.(phase := AskSessionPath(id));
    AccountTypeStep(env, s, menu);
    Then(env, s, menu, [importReply] + ([path] + rest), s1);
    ImportSessionStep(env, s1, importReply);
    Then(env, s1, importReply, [path] + rest, s2);
    SessionPathStep(env, s2, path);
    Then(env, s2, path, rest, s.(phase := AskFallback(id), imports := s.imports + [Import(ExpandTilde(Trim(path), env.home), AppstateName(id))]));
  }

  /** Choosing Facebook and declining the import leads straight to the
      email question. */
  lemma FacebookDeclinedImport(env: Env, s: State, menu: string, importReply: string, rest: seq<string>)
    requires s.phase == AskAccountType && ParseAccountType(menu) == Some(Facebook)
    requires ParseYesNo(importReply) == Some(false)
    ensures Run(env, s, [menu] + ([importReply] + rest)) == Run(env, s.(phase := AskEmail(env.sessionId(|s.accounts|))), rest)
  {
    var id := env.sessionId(|s.accounts|);
    var s1 := s.(phase := AskImportSession(id));
    AccountTypeStep(env, s, menu);
    Then(env, s, menu, [importReply] + rest, s1);
    ImportSessionStep(env, s1, importReply);
    Then(env, s1, importReply, rest, s.(phase := AskEmail(id)));
  }

  /** A yes to the fallback question leads to the email question. */
  lemma FallbackAccepted(env: Env, s: State, reply: string, rest: seq<string>)
    requires s.phase.AskFallback? && ParseYesNo(reply) == Some(true)
    ensures Run(env, s, [reply] + rest) == Run(env, s.(phase := AskEmail(s.phase.sessionId)), rest)
  {
    FallbackStep(env, s, reply);
    Then(env, s, reply, rest, s.(phase := AskEmail(s.phase.sessionId)));
  }

  /** A no to the fallback question finishes the account without
      credentials. */
  lemma FallbackDeclined(env: Env, s: State, reply: string)
    requires s.phase.AskFallback? && ParseYesNo(reply) == Some(false)
    ensures Run(env, s, [reply]) == Push(s, NewFacebookLogin(s.phase.sessionId, false, "", "", ""))
  {
    FallbackStep(env, s, reply);
    RunOne(env, s, reply);
  }

  /** Email, password and two-factor secret finish the account with
      fallback credentials. */
  lemma CredentialsRun(env: Env, s: State, id: string, email: string, password: string, secret: string)
    ensures Run(env, s.(phase := AskEmail(id)), [email, password, secret])
            == Push(s, NewFacebookLogin(id, true, Trim(email), Trim(password), Trim(secret)))
  {
    var sE := s.(phase := AskEmail(id));
    EmailStep(env, sE, email);
    assert [email, password, secret] == [email] + [password, secret];
    Then(env, sE, email, [password, secret], s.(phase := AskPassword(id, Trim(email))));
    PasswordRun(env, s, id, Trim(email), password, secret);
  }

  lemma PasswordRun(env: Env, s: State, id: string, email: string, password: string, secret: string)
    ensures Run(env, s.(phase := AskPassword(id, email)), [password, secret])
            == Push(s, NewFacebookLogin(id, true, email, Trim(password), Trim(secret)))
  {
    var sP := s.(phase := AskPassword(id, email));
    PasswordStep(env, sP, password);
    assert [password, secret] == [password] + [secret];
    Then(env, sP, password, [secret], s.(phase := AskTwoFactorSecret(id, email, Trim(password))));
    SecretRun(env, s, id, email, Trim(password), secret);
  }

  lemma SecretRun(env: Env, s: State, id: string, email: string, password: string, secret: string)
    ensures Run(env, s.(phase := AskTwoFactorSecret(id, email, password)), [secret])
            == Push(s, NewFacebookLogin(id, true, email, password, Trim(secret)))
  {
    var sT := s.(phase := AskTwoFactorSecret(id, email, password));
    TwoFactorSecretStep(env, sT, secret);
    RunOne(env, sT, secret);
    PushAnyPhase(s, sT.phase, NewFacebookLogin(id, true, email, password, Trim(secret)));
  }

  /** Adding an account does not depend on the question it was asked at. */
  lemma PushAnyPhase(s: State, q: Phase, login: LoginData)
    ensures Push(s.(phase := q), login) == Push(s, login)
  {
  }
}

=== FILE: invariant.dfy ===
/**
 The invariant the setup wizard keeps from its first question on, and what it
 implies for the finished configuration document.
 */
module Invariant {
  import opened Options
  import opened Text
  import opened Answers
  import opened Configuration
  import opened Wizard
  import opened Transitions

  /** Some session file was copied to the profile under this name. */
  ghost predicate Imported(imports: seq<Import>, location: string) {
    exists k :: 0 <= k < |imports| && imports[k].target == location
  }

  /** The phases that belong to a Facebook account under construction. */
  predicate CarriesSession(p: Phase) {
    p.AskImportSession? || p.AskSessionPath? || p.AskFallback? || p.AskEmail? || p.AskPassword? || p.AskTwoFactorSecret?
  }

  /** The phases reached only after the user agreed to enter operator ids,
      and the final one. */
  predicate OperatorPhase(p: Phase) {
    p.AskOperatorId? || p.AskAddAnotherOperator? || p.Done?
  }

  /** Every answer a phase has stored so far was trimmed. */
  predicate PhaseTrimmed(p: Phase) {
    match p
    case AskSlashCommands(token) => IsTrimmed(token)
    case AskApplicationId(token) => IsTrimmed(token)
    case AskMessageCommands(token, _, applicationId) => IsTrimmed(token) && IsTrimmed(applicationId)
    case AskDirectMessages(token, _, applicationId, _) => IsTrimmed(token) && IsTrimmed(applicationId)
    case AskPassword(_, email) => IsTrimmed(email)
    case AskTwoFactorSecret(_, email, password) => IsTrimmed(email) && IsTrimmed(password)
    case _ => true
  }

  /** What holds of the account at listener position `i`: its login is well
      formed, and a Facebook login uses the session id drawn for position
      `i` and, without fallback credentials, has its session file imported. */
  ghost predicate AccountSound(env: Env, imports: seq<Import>, i: nat, a: Account) {
    && WellFormed(a.login)
    && (a.login.FacebookLogin? ==>
          && a.login.appstateLocation == AppstateName(env.sessionId(i))
          && (a.login.fallback.None? ==> Imported(imports, a.login.appstateLocation)))
  }

  /** The invariant of the wizard. */
  ghost predicate Inv(env: Env, s: State) {
    && (PastAccounts(s.phase) ==> |s.accounts| > 0)
    && PhaseTrimmed(s.phase)
    && (CarriesSession(s.phase) ==> s.phase.sessionId == env.sessionId(|s.accounts|))
    && (s.phase.AskFallback? ==> Imported(s.imports, AppstateName(s.phase.sessionId)))
    && (!OperatorPhase(s.phase) ==> s.operators == [])
    && (forall i :: 0 <= i < |s.operators| ==> IsTrimmed(s.operators[i]))
    && (forall i :: 0 <= i < |s.accounts| ==> AccountSound(env, s.imports, i, s.accounts[i]))
  }

  lemma StartInv(env: Env)
    ensures Inv(env, Start)
  {
  }

  /** Imports are only ever added, so an imported file stays imported. */
  lemma ImportedKept(imports: seq<Import>, more: seq<Import>, location: string)
    requires |imports| <= |more| && more[..|imports|] == imports
    requires Imported(imports, location)
    ensures Imported(more, location)
  {
    var k :| 0 <= k < |imports| && imports[k].target == location;
    assert more[k] == imports[k];
  }

  /** Accounts already collected stay sound while the state moves on. */
  lemma AccountsKept(env: Env, s: State, t: State)
    requires forall i :: 0 <= i < |s.accounts| ==> AccountSound(env, s.imports, i, s.accounts[i])
    requires |s.accounts| <= |t.accounts| && t.accounts[..|s.accounts|] == s.accounts
    requires |s.imports| <= |t.imports| && t.imports[..|s.imports|] == s.imports
    ensures forall i :: 0 <= i < |s.accounts| ==> AccountSound(env, t.imports, i, t.accounts[i])
  {
    forall i | 0 <= i < |s.accounts|
      ensures AccountSound(env, t.imports, i, t.accounts[i])
    {
      assert t.accounts[i] == s.accounts[i];
      var l := s.accounts[i].login;
      if l.FacebookLogin? && l.fallback.None? {
        ImportedKept(s.imports, t.imports, l.appstateLocation);
      }
    }
  }

  /** Pushing a sound account keeps the invariant. */
  lemma PushKeepsInv(env: Env, s: State, login: LoginData)
    requires s.operators == []
    requires forall i :: 0 <= i < |s.accounts| ==> AccountSound(env, s.imports, i, s.accounts[i])
    requires AccountSound(env, s.imports, |s.accounts|, Account(login, 0))
    ensures Inv(env, Push(s, login))
  {
  }

  /** A step that does not add an account keeps the invariant as long as
      the phase it moves to is consistent. */
  lemma MoveKeepsInv(env: Env, s: State, t: State)
    requires Inv(env, s)
    requires t.accounts == s.accounts && t.operators == s.operators
    requires OperatorPhase(s.phase) ==> OperatorPhase(t.phase)
    requires |s.imports| <= |t.imports| && t.imports[..|s.imports|] == s.imports
    requires PastAccounts(t.phase) ==> |t.accounts| > 0
    requires PhaseTrimmed(t.phase)
    requires CarriesSession(t.phase) ==> t.phase.sessionId == env.sessionId(|t.accounts|)
    requires t.phase.AskFallback? ==> Imported(t.imports, AppstateName(t.phase.sessionId))
    ensures Inv(env, t)
  {
    AccountsKept(env, s, t);
  }

  /** Finishing the Facebook account under construction keeps the invariant:
      its session file name is the one drawn for its position, and without
      fallback credentials the session file was imported. */
  lemma FacebookPushKeepsInv(env: Env, s: State, login: LoginData)
    requires Inv(env, s) && (s.phase.AskFallback? || s.phase.AskTwoFactorSecret?)
    requires login.FacebookLogin? && WellFormed(login)
    requires login.appstateLocation == AppstateName(s.phase.sessionId)
    requires login.fallback.None? ==> s.phase.AskFallback?
    ensures Inv(env, Push(s, login))
  {
    PushKeepsInv(env, s, login);
  }

  /** Importing the session file for the account under construction keeps
      the invariant. */
  lemma ImportKeepsInv(env: Env, s: State, path: string)
    requires Inv(env, s) && s.phase.AskSessionPath?
    ensures var id := s.phase.sessionId;
            Inv(env, if env.isFile(path) then s.(phase := AskFallback(id), imports := s.imports + [Import(path, AppstateName(id))]) else s)
  {
    if env.isFile(path) {
      var id := s.phase.sessionId;
      var t := s.(phase := AskFallback(id), imports := s.imports + [Import(path, AppstateName(id))]);
      assert t.imports[|s.imports|].target == AppstateName(id);
      MoveKeepsInv(env, s, t);
    }
  }

  /** A phase the state may move to without adding an account or an import. */
  predicate PhaseFits(env: Env, s: State, q: Phase) {
    && (PastAccounts(q) ==> |s.accounts| > 0)
    && PhaseTrimmed(q)
    && (CarriesSession(q) ==> q.sessionId == env.sessionId(|s.accounts|))
    && (OperatorPhase(s.phase) ==> OperatorPhase(q))
    && !q.AskFallback?
  }

  lemma PhaseKeepsInv(env: Env, s: State, q: Phase)
    requires Inv(env, s) && PhaseFits(env, s, q)
    ensures Inv(env, s.(phase := q))
  {
    MoveKeepsInv(env, s, s.(phase := q));
  }

  lemma YesNoKeepsInv(env: Env, s: State, answer: string, yes: Phase, no: Phase)
    requires Inv(env, s) && PhaseFits(env, s, yes) && PhaseFits(env, s, no)
    ensures Inv(env, YesNo(s, answer, s.(phase := yes), s.(phase := no)))
  {
    PhaseKeepsInv(env, s, yes);
    PhaseKeepsInv(env, s, no);
  }

  /** Recording an operator id keeps the invariant. */
  lemma OperatorKeepsInv(env: Env, s: State, answer: string)
    requires Inv(env, s) && s.phase.AskOperatorId?
    ensures Inv(env, s.(phase := AskAddAnotherOperator, operators := s.operators + [Trim(answer)]))
  {
    var t := s.(phase := AskAddAnotherOperator, operators := s.operators + [Trim(answer)]);
    forall i | 0 <= i < |t.operators|
      ensures IsTrimmed(t.operators[i])
    {
      if i < |s.operators| {
        assert t.operators[i] == s.operators[i];
      }
    }
  }

  /** A yes/no question keeps the invariant when both of its successors do. */
  lemma YesNoInv(env: Env, s: State, answer: string, yes: State, no: State)
    requires Inv(env, s) && Inv(env, yes) && Inv(env, no)
    ensures Inv(env, YesNo(s, answer, yes, no))
  {
  }

  /** Finishing a Discord account keeps the invariant. */
  lemma DiscordPushKeepsInv(env: Env, s: State, directMessages: bool)
    requires Inv(env, s) && s.phase.AskDirectMessages?
    ensures var p := s.phase;
            Inv(env, Push(s, NewDiscordLogin(p.token, p.slashCommands, p.applicationId, p.messageCommands, directMessages)))
  {
    var p := s.phase;
    BuiltLoginsWellFormed(p.token, p.slashCommands, p.applicationId, p.messageCommands, directMessages, "", false, "", "", "");
    PushKeepsInv(env, s, NewDiscordLogin(p.token, p.slashCommands, p.applicationId, p.messageCommands, directMessages));
  }

  /** Every step keeps the invariant. */
  lemma StepPreservesInv(env: Env, s: State, answer: string)
    requires Inv(env, s)
    ensures Inv(env, Step(env, s, answer))
  {
    match s.phase
    case AskAccountType => StepInvAccountType(env, s, answer);
    case AskDiscordToken => StepInvDiscordToken(env, s, answer);
    case AskSlashCommands(_) => StepInvSlashCommands(env, s, answer);
    case AskApplicationId(_) => StepInvApplicationId(env, s, answer);
    case AskMessageCommands(_, _, _) => StepInvMessageCommands(env, s, answer);
    case AskDirectMessages(_, _, _, _) => StepInvDirectMessages(env, s, answer);
    case AskTelegramToken => StepInvTelegram(env, s, answer);
    case AskImportSession(_) => StepInvImportSession(env, s, answer);
    case AskSessionPath(_) => StepInvSessionPath(env, s, answer);
    case AskFallback(_) => StepInvFallback(env, s, answer);
    case AskEmail(_) => StepInvEmail(env, s, answer);
    case AskPassword(_, _) => StepInvPassword(env, s, answer);
    case AskTwoFactorSecret(_, _, _) => StepInvTwoFactor(env, s, answer);
    case AskAddAnotherAccount => StepInvAddAnotherAccount(env, s, answer);
    case AskAddOperators => StepInvAddOperators(env, s, answer);
    case AskOperatorId => StepInvOperator(env, s, answer);
    case AskAddAnotherOperator => StepInvAddAnotherOperator(env, s, answer);
    case Done =>
  }

  lemma StepInvAccountType(env: Env, s: State, answer: string)
    requires Inv(env, s) && s.phase.AskAccountType?
    ensures Inv(env, Step(env, s, answer))
  {
    AccountTypeStep(env, s, answer);
    PhaseKeepsInv(env, s, AskDiscordToken);
    PhaseKeepsInv(env, s, AskTelegramToken);
    PhaseKeepsInv(env, s, AskImportSession(env.sessionId(|s.accounts|)));
  }

  lemma StepInvDiscordToken(env: Env, s: State, answer: string)
    requires Inv(env, s) && s.phase.AskDiscordToken?
    ensures Inv(env, Step(env, s, answer))
  {
    DiscordTokenStep(env, s, answer);
    PhaseKeepsInv(env, s, AskSlashCommands(Trim(answer)));
  }

  lemma StepInvSlashCommands(env: Env, s: State, answer: string)
    requires Inv(env, s) && s.phase.AskSlashCommands?
    ensures Inv(env, Step(env, s, answer))
  {
    var token := s.phase.token;
    SlashCommandsStep(env, s, answer);
    YesNoKeepsInv(env, s, answer, AskApplicationId(token), AskMessageCommands(token, false, ""));
  }

  lemma StepInvApplicationId(env: Env, s: State, answer: string)
    requires Inv(env, s) && s.phase.AskApplicationId?
    ensures Inv(env, Step(env, s, answer))
  {
    ApplicationIdStep(env, s, answer);
    PhaseKeepsInv(env, s, AskMessageCommands(s.phase.token, true, Trim(answer)));
  }

  lemma StepInvMessageCommands(env: Env, s: State, answer: string)
    requires Inv(env, s) && s.phase.AskMessageCommands?
    ensures Inv(env, Step(env, s, answer))
  {
    var p := s.phase;
    MessageCommandsStep(env, s, answer);
    YesNoKeepsInv(env, s, answer, AskDirectMessages(p.token, p.slashCommands, p.applicationId, true),
                                  AskDirectMessages(p.token, p.slashCommands, p.applicationId, false));
  }

  lemma StepInvDirectMessages(env: Env, s: State, answer: string)
    requires Inv(env, s) && s.phase.AskDirectMessages?
    ensures Inv(env, Step(env, s, answer))
  {
    var p := s.phase;
    DirectMessagesStep(env, s, answer);
    DiscordPushKeepsInv(env, s, true);
    DiscordPushKeepsInv(env, s, false);
    YesNoInv(env, s, answer, Push(s, NewDiscordLogin(p.token, p.slashCommands, p.applicationId, p.messageCommands, true)),
                             Push(s, NewDiscordLogin(p.token, p.slashCommands, p.applicationId, p.messageCommands, false)));
  }

  lemma StepInvTelegram(env: Env, s: State, answer: string)
    requires Inv(env, s) && s.phase.AskTelegramToken?
    ensures Inv(env, Step(env, s, answer))
  {
    TelegramTokenStep(env, s, answer);
    BuiltLoginsWellFormed(Trim(answer), false, "", false, false, "", false, "", "", "");
    PushKeepsInv(env, s, TelegramLogin(Trim(answer)));
  }

  lemma StepInvImportSession(env: Env, s: State, answer: string)
    requires Inv(env, s) && s.phase.AskImportSession?
    ensures Inv(env, Step(env, s, answer))
  {
    var id := s.phase.sessionId;
    ImportSessionStep(env, s, answer);
    YesNoKeepsInv(env, s, answer, AskSessionPath(id), AskEmail(id));
  }

  lemma StepInvSessionPath(env: Env, s: State, answer: string)
    requires Inv(env, s) && s.phase.AskSessionPath?
    ensures Inv(env, Step(env, s, answer))
  {
    SessionPathStep(env, s, answer);
    ImportKeepsInv(env, s, ExpandTilde(Trim(answer), env.home));
  }

  lemma StepInvFallback(env: Env, s: State, answer: string)
    requires Inv(env, s) && s.phase.AskFallback?
    ensures Inv(env, Step(env, s, answer))
  {
    var id := s.phase.sessionId;
    FallbackStep(env, s, answer);
    PhaseKeepsInv(env, s, AskEmail(id));
    BuiltLoginsWellFormed("", false, "", false, false, id, false, "", "", "");
    FacebookPushKeepsInv(env, s, NewFacebookLogin(id, false, "", "", ""));
    YesNoInv(env, s, answer, s.(phase := AskEmail(id)), Push(s, NewFacebookLogin(id, false, "", "", "")));
  }

  lemma StepInvEmail(env: Env, s: State, answer: string)
    requires Inv(env, s) && s.phase.AskEmail?
    ensures Inv(env, Step(env, s, answer))
  {
    EmailStep(env, s, answer);
    PhaseKeepsInv(env, s, AskPassword(s.phase.sessionId, Trim(answer)));
  }

  lemma StepInvPassword(env: Env, s: State, answer: string)
    requires Inv(env, s) && s.phase.AskPassword?
    ensures Inv(env, Step(env, s, answer))
  {
    PasswordStep(env, s, answer);
    PhaseKeepsInv(env, s, AskTwoFactorSecret(s.phase.sessionId, s.phase.email, Trim(answer)));
  }

  lemma StepInvTwoFactor(env: Env, s: State, answer: string)
    requires Inv(env, s) && s.phase.AskTwoFactorSecret?
    ensures Inv(env, Step(env, s, answer))
  {
    var p := s.phase;
    TwoFactorSecretStep(env, s, answer);
    BuiltLoginsWellFormed("", false, "", false, false, p.sessionId, true, p.email, p.password, Trim(answer));
    FacebookPushKeepsInv(env, s, NewFacebookLogin(p.sessionId, true, p.email, p.password, Trim(answer)));
  }

  lemma StepInvAddAnotherAccount(env: Env, s: State, answer: string)
    requires Inv(env, s) && s.phase.AskAddAnotherAccount?
    ensures Inv(env, Step(env, s, answer))
  {
    AddAnotherAccountStep(env, s, answer);
    YesNoKeepsInv(env, s, answer, AskAccountType, AskAddOperators);
  }

  lemma StepInvAddOperators(env: Env, s: State, answer: string)
    requires Inv(env, s) && s.phase.AskAddOperators?
    ensures Inv(env, Step(env, s, answer))
  {
    AddOperatorsStep(env, s, answer);
    YesNoKeepsInv(env, s, answer, AskOperatorId, Done);
  }

  lemma StepInvOperator(env: Env, s: State, answer: string)
    requires Inv(env, s) && s.phase.AskOperatorId?
    ensures Inv(env, Step(env, s, answer))
  {
    OperatorIdStep(env, s, answer);
    OperatorKeepsInv(env, s, answer);
  }

  lemma StepInvAddAnotherOperator(env: Env, s: State, answer: string)
    requires Inv(env, s) && s.phase.AskAddAnotherOperator?
    ensures Inv(env, Step(env, s, answer))
  {
    AddAnotherOperatorStep(env, s, answer);
    YesNoKeepsInv(env, s, answer, AskOperatorId, Done);
  }

  /** The invariant holds after any sequence of answers. */
  lemma {:induction false} RunPreservesInv(env: Env, s: State, answers: seq<string>)
    requires Inv(env, s)
    ensures Inv(env, Run(env, s, answers))
    decreases |answers|
  {
    if answers != [] {
      StepPreservesInv(env, s, answers[0]);
      RunPreservesInv(env, Step(env, s, answers[0]), answers[1..]);
    }
  }

  /** The finished document: a non-empty listener list whose ids are the
      positions, well-formed logins, Facebook logins that use the session id
      drawn for their position and, without fallback credentials, a session
      file that was imported; operator ids are trimmed. */
  lemma SetupDocumentSound(env: Env, answers: seq<string>)
    ensures Setup(env, answers).Complete? ==>
              var c := Setup(env, answers).config;
              && |c.listener| > 0
              && (forall i :: 0 <= i < |c.listener| ==> c.listener[i].id == i)
              && (forall i :: 0 <= i < |c.listener| ==> AccountSound(env, Setup(env, answers).imports, i, c.listener[i]))
              && (forall i :: 0 <= i < |c.operators| ==> IsTrimmed(c.operators[i]))
  {
    StartInv(env);
    RunPreservesInv(env, Start, answers);
    var s := Run(env, Start, answers);
    if s.phase.Done? {
      var c := Assemble(s.accounts, s.operators);
      forall i | 0 <= i < |c.listener|
        ensures AccountSound(env, s.imports, i, c.listener[i])
      {
        assert AccountSound(env, s.imports, i, s.accounts[i]);
      }
    }
  }

}

=== FILE: options.dfy ===
/** The optional value used for keys a record may or may not carry. */
module Options {

  datatype Option<+T> = None | Some(value: T)
}

=== FILE: text.dfy ===
/**
 The string operations the setup wizard applies to every answer it reads:
 JavaScript's `String.prototype.trim`, `String.prototype.toLowerCase` as far
 as it decides comparisons against lower-case ASCII words, and the leading
 `~` substitution `s.replace(/^~/, home)` used on paths.
 */
module Text {

  /** The code points `trim` removes: ECMAScript WhiteSpace (TAB, VT, FF,
      ZWNBSP and every Unicode space separator) and LineTerminator (LF, CR,
      LS, PS). */
  predicate IsSpace(c: char) {
    || c == '\t' || c == '\n' || c == '\U{0B}' || c == '\U{0C}' || c == '\r'
    || c == ' ' || c == '\U{A0}' || c == '\U{1680}'
    || ('\U{2000}' <= c <= '\U{200A}')
    || c == '\U{2028}' || c == '\U{2029}' || c == '\U{202F}' || c == '\U{205F}'
    || c == '\U{3000}' || c == '\U{FEFF}'
  }

  predicate AllSpace(s: string) {
    forall i :: 0 <= i < |s| ==> IsSpace(s[i])
  }

  /** Neither the first nor the last character is white space. */
  predicate IsTrimmed(s: string) {
    s == [] || (!IsSpace(s[0]) && !IsSpace(s[|s| - 1]))
  }

  /** `x` occurs in `s` surrounded by nothing but white space. */
  ghost predicate Padded(s: string, x: string) {
    exists i :: 0 <= i && i + |x| <= |s| && AllSpace(s[..i]) && s[i..i + |x|] == x && AllSpace(s[i + |x|..])
  }

  /** The length of the white-space run at the front of `s`. */
  function LeadingSpace(s: string): (n: nat)
    ensures n <= |s|
    ensures AllSpace(s[..n])
    ensures n < |s| ==> !IsSpace(s[n])
  {
    if |s| > 0 && IsSpace(s[0]) then
      var m := LeadingSpace(s[1..]);
      assert s[..1 + m] == [s[0]] + s[1..][..m];
      1 + m
    else
      0
  }

  /** The length of the white-space run at the back of `s`. */
  function TrailingSpace(s: string): (n: nat)
    ensures n <= |s|
    ensures AllSpace(s[|s| - n..])
    ensures n < |s| ==> !IsSpace(s[|s| - n - 1])
  {
    if |s| > 0 && IsSpace(s[|s| - 1]) then
      var init := s[..|s| - 1];
      var m := TrailingSpace(init);
      assert s[|s| - (1 + m)..] == init[|init| - m..] + [s[|s| - 1]];
      1 + m
    else
      0
  }

  /** `String.prototype.trim`: drops white space at both ends. */
  function Trim(s: string): (r: string)
    ensures IsTrimmed(r)
    ensures Padded(s, r)
  {
    var i := LeadingSpace(s);
    var rest := s[i..];
    var j := TrailingSpace(rest);
    var r := rest[..|rest| - j];
    assert s[i..i + |r|] == r;
    assert s[i + |r|..] == rest[|rest| - j..];
    assert r != [] ==> r[0] == s[i] && r[|r| - 1] == rest[|rest| - j - 1];
    r
  }

  /** Trimming recovers exactly the word a string was padded around: together
      with Trim's own contract this characterises `trim` without reference to
      how it scans. */
  lemma TrimPadded(s: string, i: nat, x: string)
    requires i + |x| <= |s|
    requires AllSpace(s[..i]) && s[i..i + |x|] == x && AllSpace(s[i + |x|..])
    requires IsTrimmed(x)
    ensures Trim(s) == x
  {
    var n := LeadingSpace(s);
    if x == [] {
      assert n == |s|;
    } else {
      assert s[i] == x[0];
      assert n == i;
      var rest := s[i..];
      var m := TrailingSpace(rest);
      assert rest[|x|..] == s[i + |x|..];
      assert rest[|x| - 1] == x[|x| - 1];
      assert m == |s| - (i + |x|);
      assert rest[..|rest| - m] == x;
    }
  }

  /** `trim` returns `x` exactly when `x` has no white space at its ends and
      `s` is `x` padded with white space. */
  lemma TrimIff(s: string, x: string)
    ensures Trim(s) == x <==> IsTrimmed(x) && Padded(s, x)
  {
    if IsTrimmed(x) && Padded(s, x) {
      var i :| 0 <= i && i + |x| <= |s| && AllSpace(s[..i]) && s[i..i + |x|] == x && AllSpace(s[i + |x|..]);
      TrimPadded(s, i, x);
    }
  }

  /** `toLowerCase` on one code point, as far as equality with lower-case
      ASCII text is concerned: ASCII capitals map to their small letters and
      U+212A KELVIN SIGN maps to `k`. Every other code point either lowers to
      a non-ASCII code point or to several code units, so it can never become
      an ASCII letter and is kept as it is. */
  function LowerChar(c: char): (r: char)
    ensures !('A' <= r <= 'Z')
    ensures IsSpace(r) <==> IsSpace(c)
    ensures 'a' <= r <= 'z' <==> 'a' <= c <= 'z' || 'A' <= c <= 'Z' || c == '\U{212A}'
  {
    if 'A' <= c <= 'Z' then (c as int + 32) as char
    else if c == '\U{212A}' then 'k'
    else c
  }

  function Lower(s: string): (r: string)
    ensures |r| == |s|
    ensures forall i :: 0 <= i < |s| ==> r[i] == LowerChar(s[i])
  {
    seq(|s|, i requires 0 <= i < |s| => LowerChar(s[i]))
  }

  /** The normal form every menu and yes/no answer is compared in:
      `answer.trim().toLowerCase()`. */
  function Normalize(answer: string): string {
    Lower(Trim(answer))
  }

  /** A non-empty word of small ASCII letters, such as "y" or "discord". */
  predicate IsWord(w: string) {
    |w| > 0 && forall k :: 0 <= k < |w| ==> 'a' <= w[k] <= 'z'
  }

  /** `answer` is some capitalisation of `w` with white space around it. */
  ghost predicate PaddedSpelling(answer: string, w: string) {
    exists i, j :: 0 <= i <= j <= |answer| && AllSpace(answer[..i]) && Lower(answer[i..j]) == w && AllSpace(answer[j..])
  }

  /** A normalised answer equal to `w` came from a padded spelling of `w`. */
  lemma NormalizedIsPadded(answer: string, w: string)
    requires Normalize(answer) == w
    ensures PaddedSpelling(answer, w)
  {
    var t := Trim(answer);
    var i :| 0 <= i && i + |t| <= |answer| && AllSpace(answer[..i]) && answer[i..i + |t|] == t && AllSpace(answer[i + |t|..]);
    assert Lower(answer[i..i + |t|]) == w;
  }

  /** A padded spelling of a word trims to the spelling itself. */
  lemma PaddedIsNormalized(answer: string, w: string, i: nat, j: nat)
    requires IsWord(w)
    requires i <= j <= |answer| && AllSpace(answer[..i]) && Lower(answer[i..j]) == w && AllSpace(answer[j..])
    ensures Normalize(answer) == w
  {
    var x := answer[i..j];
    assert LowerChar(x[0]) == w[0] && LowerChar(x[|x| - 1]) == w[|w| - 1];
    assert answer[i..i + |x|] == x;
    TrimPadded(answer, i, x);
  }

  /** An answer normalises to a word exactly when it is that word, in any
      capitalisation, surrounded by white space. */
  lemma NormalizeIs(answer: string, w: string)
    requires IsWord(w)
    ensures Normalize(answer) == w <==> PaddedSpelling(answer, w)
  {
    if Normalize(answer) == w {
      NormalizedIsPadded(answer, w);
    }
    if PaddedSpelling(answer, w) {
      var i, j :| 0 <= i <= j <= |answer| && AllSpace(answer[..i]) && Lower(answer[i..j]) == w && AllSpace(answer[j..]);
      PaddedIsNormalized(answer, w, i, j);
    }
  }

  /** The only spellings of a one-letter small word are the letter and its
      capital (the wizard's "y" and "n"). */
  lemma SingleLetterSpellings(x: string, c: char)
    requires 'a' <= c <= 'z' && c != 'k'
    ensures Lower(x) == [c] <==> x == [c] || x == [(c as int - 32) as char]
  {
    if Lower(x) == [c] {
      assert LowerChar(x[0]) == c;
    }
  }

  /** The leading-tilde rewrite `s.replace(/^~/, home)`: only a `~` in first
      position is replaced, and only once. */
  function ExpandTilde(s: string, home: string): (r: string)
    ensures |s| > 0 && s[0] == '~' ==> r == home + s[1..]
    ensures (|s| == 0 || s[0] != '~') ==> r == s
  {
    if |s| > 0 && s[0] == '~' then home + s[1..] else s
  }

  /** Expanding twice changes nothing once the home directory itself does not
      start with a tilde. */
  lemma ExpandTildeIdempotent(s: string, home: string)
    requires |home| > 0 && home[0] != '~'
    ensures ExpandTilde(ExpandTilde(s, home), home) == ExpandTilde(s, home)
  {
  }
}

=== FILE: transitions.dfy ===
/**
 What one answer does to the wizard, question by question: each lemma names
 the state in which the next question is asked. The proofs about whole runs
 and about the invariant go through these instead of unfolding the step
 function themselves.
 */
module Transitions {
  import opened Options
  import opened Text
  import opened Answers
  import opened Configuration
  import opened Wizard

  /** The menu: a platform name opens that platform's questions; a Facebook
      account draws the session id for the position it will take. */
  lemma AccountTypeStep(env: Env, s: State, answer: string)
    requires s.phase.AskAccountType?
    ensures ParseAccountType(answer).None? ==> Step(env, s, answer) == s
    ensures ParseAccountType(answer) == Some(Discord) ==> Step(env, s, answer) == s.(phase := AskDiscordToken)
    ensures ParseAccountType(answer) == Some(Telegram) ==> Step(env, s, answer) == s.(phase := AskTelegramToken)
    ensures ParseAccountType(answer) == Some(Facebook)
            ==> Step(env, s, answer) == s.(phase := AskImportSession(env.sessionId(|s.accounts|)))
  {
    assert s.phase == AskAccountType;
  }

  lemma DiscordTokenStep(env: Env, s: State, answer: string)
    requires s.phase.AskDiscordToken?
    ensures Step(env, s, answer) == s.(phase := AskSlashCommands(Trim(answer)))
  {
    assert s.phase == AskDiscordToken;
    assert Step(env, s, answer) == StepDiscord(s, answer);
  }

  lemma SlashCommandsStep(env: Env, s: State, answer: string)
    requires s.phase.AskSlashCommands?
    ensures var token := s.phase.token;
            Step(env, s, answer)
            == YesNo(s, answer, s.(phase := AskApplicationId(token)), s.(phase := AskMessageCommands(token, false, "")))
  {
    assert s.phase == AskSlashCommands(s.phase.token);
    assert Step(env, s, answer) == StepDiscord(s, answer);
  }

  lemma ApplicationIdStep(env: Env, s: State, answer: string)
    requires s.phase.AskApplicationId?
    ensures Step(env, s, answer) == s.(phase := AskMessageCommands(s.phase.token, true, Trim(answer)))
  {
    assert s.phase == AskApplicationId(s.phase.token);
    assert Step(env, s, answer) == StepDiscord(s, answer);
  }

  lemma MessageCommandsStep(env: Env, s: State, answer: string)
    requires s.phase.AskMessageCommands?
    ensures var p := s.phase;
            Step(env, s, answer)
            == YesNo(s, answer, s.(phase := AskDirectMessages(p.token, p.slashCommands, p.applicationId, true)),
                                s.(phase := AskDirectMessages(p.token, p.slashCommands, p.applicationId, false)))
  {
    assert s.phase == AskMessageCommands(s.phase.token, s.phase.slashCommands, s.phase.applicationId);
    assert Step(env, s, answer) == StepDiscord(s, answer);
  }

  lemma DirectMessagesStep(env: Env, s: State, answer: string)
    requires s.phase.AskDirectMessages?
    ensures var p := s.phase;
            Step(env, s, answer)
            == YesNo(s, answer, Push(s, NewDiscordLogin(p.token, p.slashCommands, p.applicationId, p.messageCommands, true)),
                                Push(s, NewDiscordLogin(p.token, p.slashCommands, p.applicationId, p.messageCommands, false)))
  {
    assert s.phase == AskDirectMessages(s.phase.token, s.phase.slashCommands, s.phase.applicationId, s.phase.messageCommands);
    assert Step(env, s, answer) == StepDiscord(s, answer) == FinishDiscord(s, answer);
  }

  lemma TelegramTokenStep(env: Env, s: State, answer: string)
    requires s.phase.AskTelegramToken?
    ensures Step(env, s, answer) == Push(s, TelegramLogin(Trim(answer)))
  {
    assert s.phase == AskTelegramToken;
  }

  lemma ImportSessionStep(env: Env, s: State, answer: string)
    requires s.phase.AskImportSession?
    ensures var id := s.phase.sessionId;
            Step(env, s, answer) == YesNo(s, answer, s.(phase := AskSessionPath(id)), s.(phase := AskEmail(id)))
  {
    assert s.phase == AskImportSession(s.phase.sessionId);
    assert Step(env, s, answer) == StepFacebook(s, answer);
  }

  /** A path naming an existing regular file is recorded as an import under
      the account's session-file name; any other path is asked for again. */
  lemma SessionPathStep(env: Env, s: State, answer: string)
    requires s.phase.AskSessionPath?
    ensures var id := s.phase.sessionId;
            var path := ExpandTilde(Trim(answer), env.home);
            Step(env, s, answer)
            == if env.isFile(path) then s.(phase := AskFallback(id), imports := s.imports + [Import(path, AppstateName(id))])
               else s
  {
    assert s.phase == AskSessionPath(s.phase.sessionId);
    assert Step(env, s, answer) == ReadSessionPath(env, s, answer);
  }

  lemma FallbackStep(env: Env, s: State, answer: string)
    requires s.phase.AskFallback?
    ensures var id := s.phase.sessionId;
            Step(env, s, answer) == YesNo(s, answer, s.(phase := AskEmail(id)), Push(s, NewFacebookLogin(id, false, "", "", "")))
  {
    assert s.phase == AskFallback(s.phase.sessionId);
    assert Step(env, s, answer) == StepFacebook(s, answer);
  }

  lemma EmailStep(env: Env, s: State, answer: string)
    requires s.phase.AskEmail?
    ensures Step(env, s, answer) == s.(phase := AskPassword(s.phase.sessionId, Trim(answer)))
  {
    assert s.phase == AskEmail(s.phase.sessionId);
    assert Step(env, s, answer) == StepFacebook(s, answer);
  }

  lemma PasswordStep(env: Env, s: State, answer: string)
    requires s.phase.AskPassword?
    ensures Step(env, s, answer) == s.(phase := AskTwoFactorSecret(s.phase.sessionId, s.phase.email, Trim(answer)))
  {
    assert s.phase == AskPassword(s.phase.sessionId, s.phase.email);
    assert Step(env, s, answer) == StepFacebook(s, answer);
  }

  lemma TwoFactorSecretStep(env: Env, s: State, answer: string)
    requires s.phase.AskTwoFactorSecret?
    ensures var p := s.phase;
            Step(env, s, answer) == Push(s, NewFacebookLogin(p.sessionId, true, p.email, p.password, Trim(answer)))
  {
    assert s.phase == AskTwoFactorSecret(s.phase.sessionId, s.phase.email, s.phase.password);
    assert Step(env, s, answer) == StepFacebook(s, answer);
  }

  lemma AddAnotherAccountStep(env: Env, s: State, answer: string)
    requires s.phase.AskAddAnotherAccount?
    ensures Step(env, s, answer) == YesNo(s, answer, s.(phase := AskAccountType), s.(phase := AskAddOperators))
  {
    assert s.phase == AskAddAnotherAccount;
  }

  lemma AddOperatorsStep(env: Env, s: State, answer: string)
    requires s.phase.AskAddOperators?
    ensures Step(env, s, answer) == YesNo(s, answer, s.(phase := AskOperatorId), s.(phase := Done))
  {
    assert s.phase == AskAddOperators;
  }

  lemma OperatorIdStep(env: Env, s: State, answer: string)
    requires s.phase.AskOperatorId?
    ensures Step(env, s, answer) == s.(phase := AskAddAnotherOperator, operators := s.operators + [Trim(answer)])
  {
    assert s.phase == AskOperatorId;
  }

  lemma AddAnotherOperatorStep(env: Env, s: State, answer: string)
    requires s.phase.AskAddAnotherOperator?
    ensures Step(env, s, answer) == YesNo(s, answer, s.(phase := AskOperatorId), s.(phase := Done))
  {
    assert s.phase == AskAddAnotherOperator;
  }
}

=== FILE: wizard.dfy ===
/**
 The first-run setup wizard as a state machine over the answers typed at its
 prompts. Each answer moves the wizard one step; an answer a closed question
 does not accept leaves it where it was, so the same question is asked again.
 When the user declines to add further operators the wizard is done and the
 configuration document is assembled from what it collected.
 */
module Wizard {
  import opened Options
  import opened Text
  import opened Answers
  import opened Configuration

  /** What the wizard learns from outside the answers: the home directory a
      leading `~` stands for, whether a (tilde-expanded) path names an
      existing regular file, and the random session id drawn for the
      Facebook account that will take a given listener position. */
  datatype Env = Env(home: string, isFile: string -> bool, sessionId: nat -> string)

  /** The question being asked, with the answers collected so far for the
      account under construction. */
  datatype Phase =
    | AskAccountType
    | AskDiscordToken
    | AskSlashCommands(token: string)
    | AskApplicationId(token: string)
    | AskMessageCommands(token: string, slashCommands: bool, applicationId: string)
    | AskDirectMessages(token: string, slashCommands: bool, applicationId: string, messageCommands: bool)
    | AskTelegramToken
    | AskImportSession(sessionId: string)
    | AskSessionPath(sessionId: string)
    | AskFallback(sessionId: string)
    | AskEmail(sessionId: string)
    | AskPassword(sessionId: string, email: string)
    | AskTwoFactorSecret(sessionId: string, email: string, password: string)
    | AskAddAnotherAccount
    | AskAddOperators
    | AskOperatorId
    | AskAddAnotherOperator
    | Done

  /** A session file copied into the profile's data directory. */
  datatype Import = Import(source: string, target: string)

  datatype State = State(phase: Phase, accounts: seq<Account>, operators: seq<string>, imports: seq<Import>)

  /** Where the wizard ends up once the answers run out, with the session
      files copied on the way: a copy is made as soon as its path is
      accepted, so it is there whether or not the document is written. */
  datatype Outcome =
    | Complete(config: Config, imports: seq<Import>)
    | Awaiting(question: string, imports: seq<Import>)

  const Start := State(AskAccountType, [], [], [])

  /** The prompt printed for a phase. */
  function Question(p: Phase): string {
    match p
    case AskAccountType => "Account type (facebook, discord, telegram): "
    case AskDiscordToken => "Discord bot token: "
    case AskSlashCommands(_) => "Do you want to enable slash commands? (y/n): "
    case AskApplicationId(_) => "Discord application ID: "
    case AskMessageCommands(_, _, _) => "Do you want to enable regular message commands? (y/n): "
    case AskDirectMessages(_, _, _, _) => "Do you want to accept commands from DMs? (y/n): "
    case AskTelegramToken => "Telegram bot token: "
    case AskImportSession(_) => "Do you want to import existing session/appstate file? (y/n): "
    case AskSessionPath(_) => "Session/appstate file path: "
    case AskFallback(_) => "Do you want to add email/password fallback login? (y/n): "
    case AskEmail(_) => "Email: "
    case AskPassword(_, _) => "Password: "
    case AskTwoFactorSecret(_, _, _) => "2FA secret (leave blank if not enabled): "
    case AskAddAnotherAccount => "Do you want to add another account? (y/n): "
    case AskAddOperators => "Do you want to add operators? (y/n): "
    case AskOperatorId => "Formatted operator ID: "
    case AskAddAnotherOperator => "Do you want to add another operator? (y/n): "
    case Done => ""
  }

  /** The phases whose answer is read with the yes/no classifier. */
  predicate IsYesNo(p: Phase) {
    || p.AskSlashCommands? || p.AskMessageCommands? || p.AskDirectMessages?
    || p.AskImportSession? || p.AskFallback? || p.AskAddAnotherAccount?
    || p.AskAddOperators? || p.AskAddAnotherOperator?
  }

  /** The prompt ends in the "(y/n): " hint. */
  predicate EndsWithYN(question: string) {
    |question| >= 7 && question[|question| - 7..] == "(y/n): "
  }

  /** Exactly the questions that advertise "(y/n)" are read as yes/no
      answers. */
  lemma YesNoQuestionsSayYN(p: Phase)
    requires !p.Done?
    ensures IsYesNo(p) <==> EndsWithYN(Question(p))
  {
    if IsYesNo(p) {
      YesNoQuestionHint(p);
    } else {
      OpenQuestionHint(p);
    }
  }

  lemma YesNoQuestionHint(p: Phase)
    requires IsYesNo(p)
    ensures EndsWithYN(Question(p))
  {
    if p.AskSlashCommands? || p.AskMessageCommands? || p.AskDirectMessages? || p.AskImportSession? {
      AccountYesNoHint(p);
    } else {
      LoopYesNoHint(p);
    }
  }

  lemma AccountYesNoHint(p: Phase)
    requires p.AskSlashCommands? || p.AskMessageCommands? || p.AskDirectMessages? || p.AskImportSession?
    ensures EndsWithYN(Question(p))
  {
  }

  lemma LoopYesNoHint(p: Phase)
    requires p.AskFallback? || p.AskAddAnotherAccount? || p.AskAddOperators? || p.AskAddAnotherOperator?
    ensures EndsWithYN(Question(p))
  {
  }

  lemma OpenQuestionHint(p: Phase)
    requires !p.Done? && !IsYesNo(p)
    ensures !EndsWithYN(Question(p))
  {
    var q := Question(p);
    match p {
      case AskAccountType => assert q[|q| - 3] == ')' && q[|q| - 7] == 'g';
      case AskTwoFactorSecret(_, _, _) => assert q[|q| - 3] == ')' && q[|q| - 7] == 'b';
      case _ => PlainQuestionHint(p);
    }
  }

  /** The open questions whose prompt does not end in a parenthesis. */
  lemma PlainQuestionHint(p: Phase)
    requires p.AskDiscordToken? || p.AskApplicationId? || p.AskTelegramToken? || p.AskSessionPath?
             || p.AskEmail? || p.AskPassword? || p.AskOperatorId?
    ensures !EndsWithYN(Question(p))
  {
    var q := Question(p);
    assert q[|q| - 3] != ')';
  }

  /** Adds a finished account (id 0 until renumbering) and asks whether to
      add another. */
  function Push(s: State, login: LoginData): (t: State)
    ensures t.phase == AskAddAnotherAccount && t.operators == s.operators && t.imports == s.imports
    ensures |t.accounts| == |s.accounts| + 1 && t.accounts[..|s.accounts|] == s.accounts
    ensures t.accounts[|s.accounts|].login == login
  {
    s.(phase := AskAddAnotherAccount, accounts := s.accounts + [Account(login, 0)])
  }

  /** The phases after the account loop has been left. */
  predicate PastAccounts(p: Phase) {
    p.AskAddAnotherAccount? || p.AskAddOperators? || p.AskOperatorId? || p.AskAddAnotherOperator? || p.Done?
  }

  /** A yes/no question: a rejected answer keeps the state, otherwise the
      reply picks one of the two successors. */
  function YesNo(s: State, answer: string, yes: State, no: State): (t: State)
    ensures t == s <== ParseYesNo(answer).None?
    ensures t == yes <== ParseYesNo(answer) == Some(true)
    ensures t == no <== ParseYesNo(answer) == Some(false)
  {
    match ParseYesNo(answer)
    case None => s
    case Some(reply) => if reply then yes else no
  }

  /** What any step does to the collected accounts and imports: at most one
      account is appended, and only on the way to "add another account?";
      imports are only ever appended. */
  predicate Advances(s: State, t: State) {
    && |s.accounts| <= |t.accounts| <= |s.accounts| + 1
    && t.accounts[..|s.accounts|] == s.accounts
    && (|t.accounts| > |s.accounts| ==> t.phase == AskAddAnotherAccount)
    && (t.phase == AskAddAnotherAccount && s.phase != AskAddAnotherAccount ==> |t.accounts| == |s.accounts| + 1)
    && |s.imports| <= |t.imports| && t.imports[..|s.imports|] == s.imports
  }

  /** The Discord questions. */
  function StepDiscord(s: State, answer: string): (t: State)
    requires s.phase.AskDiscordToken? || s.phase.AskSlashCommands? || s.phase.AskApplicationId?
             || s.phase.AskMessageCommands? || s.phase.AskDirectMessages?
    ensures Advances(s, t)
    ensures t.imports == s.imports && t.operators == s.operators
    ensures !s.phase.AskDirectMessages? ==> t.accounts == s.accounts
  {
    match s.phase
    case AskDiscordToken => s.(phase := AskSlashCommands(Trim(answer)))
    case AskSlashCommands(token) =>
      YesNo(s, answer, s.(phase := AskApplicationId(token)), s.(phase := AskMessageCommands(token, false, "")))
    case AskApplicationId(token) => s.(phase := AskMessageCommands(token, true, Trim(answer)))
    case AskMessageCommands(token, slash, appId) =>
      YesNo(s, answer, s.(phase := AskDirectMessages(token, slash, appId, true)),
                       s.(phase := AskDirectMessages(token, slash, appId, false)))
    case AskDirectMessages(_, _, _, _) => FinishDiscord(s, answer)
  }

  /** The last Discord question adds the account. */
  function FinishDiscord(s: State, answer: string): (t: State)
    requires s.phase.AskDirectMessages?
    ensures Advances(s, t)
    ensures t.imports == s.imports && t.operators == s.operators
    ensures ParseYesNo(answer).None? ==> t == s
    ensures ParseYesNo(answer).Some? ==>
              && t.phase == AskAddAnotherAccount && |t.accounts| == |s.accounts| + 1
              && t.accounts[|s.accounts|].login
                 == NewDiscordLogin(s.phase.token, s.phase.slashCommands, s.phase.applicationId,
                                    s.phase.messageCommands, ParseYesNo(answer).value)
  {
    var p := s.phase;
    YesNo(s, answer, Push(s, NewDiscordLogin(p.token, p.slashCommands, p.applicationId, p.messageCommands, true)),
                     Push(s, NewDiscordLogin(p.token, p.slashCommands, p.applicationId, p.messageCommands, false)))
  }

  /** The Facebook questions. */
  function StepFacebook(s: State, answer: string): (t: State)
    requires s.phase.AskImportSession? || s.phase.AskFallback?
             || s.phase.AskEmail? || s.phase.AskPassword? || s.phase.AskTwoFactorSecret?
    ensures Advances(s, t)
    ensures t.imports == s.imports && t.operators == s.operators
    ensures !(s.phase.AskFallback? || s.phase.AskTwoFactorSecret?) ==> t.accounts == s.accounts
  {
    match s.phase
    case AskImportSession(id) =>
      // Without an imported session file the fallback login is forced on.
      YesNo(s, answer, s.(phase := AskSessionPath(id)), s.(phase := AskEmail(id)))
    case AskFallback(id) =>
      YesNo(s, answer, s.(phase := AskEmail(id)), Push(s, NewFacebookLogin(id, false, "", "", "")))
    case AskEmail(id) => s.(phase := AskPassword(id, Trim(answer)))
    case AskPassword(id, email) => s.(phase := AskTwoFactorSecret(id, email, Trim(answer)))
    case AskTwoFactorSecret(id, email, password) => Push(s, NewFacebookLogin(id, true, email, password, Trim(answer)))
  }

  /** The path to an existing session file: the path is read with a leading
      tilde expanded, and only an existing regular file is taken. */
  function ReadSessionPath(env: Env, s: State, answer: string): (t: State)
    requires s.phase.AskSessionPath?
    ensures Advances(s, t)
    ensures t.accounts == s.accounts && t.operators == s.operators
    ensures t.phase == s.phase || t.phase == AskFallback(s.phase.sessionId)
  {
    var id := s.phase.sessionId;
    var path := ExpandTilde(Trim(answer), env.home);
    if env.isFile(path) then
      s.(phase := AskFallback(id), imports := s.imports + [Import(path, AppstateName(id))])
    else
      s
  }

  /** One answer. Closed questions keep the state unchanged on an answer they
      reject; a session path that is not an existing regular file does the
      same. */
  function Step(env: Env, s: State, answer: string): (t: State)
    ensures |s.accounts| <= |t.accounts| <= |s.accounts| + 1
    ensures t.accounts[..|s.accounts|] == s.accounts
    ensures |t.accounts| > |s.accounts| ==> t.phase == AskAddAnotherAccount
    ensures t.phase == AskAddAnotherAccount && s.phase != AskAddAnotherAccount ==> |t.accounts| == |s.accounts| + 1
    ensures s.phase == Done ==> t == s
    ensures |s.imports| <= |t.imports| && t.imports[..|s.imports|] == s.imports
  {
    match s.phase
    case AskAccountType =>
      (match ParseAccountType(answer)
       case None => s
       case Some(Discord) => s.(phase := AskDiscordToken)
       case Some(Telegram) => s.(phase := AskTelegramToken)
       case Some(Facebook) => s.(phase := AskImportSession(env.sessionId(|s.accounts|))))
    case AskDiscordToken => StepDiscord(s, answer)
    case AskSlashCommands(_) => StepDiscord(s, answer)
    case AskApplicationId(_) => StepDiscord(s, answer)
    case AskMessageCommands(_, _, _) => StepDiscord(s, answer)
    case AskDirectMessages(_, _, _, _) => StepDiscord(s, answer)
    case AskTelegramToken => Push(s, TelegramLogin(Trim(answer)))
    case AskImportSession(_) => StepFacebook(s, answer)
    case AskSessionPath(_) => ReadSessionPath(env, s, answer)
    case AskFallback(_) => StepFacebook(s, answer)
    case AskEmail(_) => StepFacebook(s, answer)
    case AskPassword(_, _) => StepFacebook(s, answer)
    case AskTwoFactorSecret(_, _, _) => StepFacebook(s, answer)
    case AskAddAnotherAccount =>
      YesNo(s, answer, s.(phase := AskAccountType), s.(phase := AskAddOperators))
    case AskAddOperators =>
      YesNo(s, answer, s.(phase := AskOperatorId), s.(phase := Done))
    case AskOperatorId => s.(phase := AskAddAnotherOperator, operators := s.operators + [Trim(answer)])
    case AskAddAnotherOperator =>
      YesNo(s, answer, s.(phase := AskOperatorId), s.(phase := Done))
    case Done => s
  }

  /** Feeds the answers one by one. */
  function Run(env: Env, s: State, answers: seq<string>): State
    decreases |answers|
  {
    if answers == [] then s else Run(env, Step(env, s, answers[0]), answers[1..])
  }

  /** The whole wizard: the document once it is done, otherwise the question
      still waiting for an answer. */
  function Setup(env: Env, answers: seq<string>): Outcome {
    var s := Run(env, Start, answers);
    if s.phase.Done? then Complete(Assemble(s.accounts, s.operators), s.imports)
    else Awaiting(Question(s.phase), s.imports)
  }
}

=== FILE: wizard_properties.dfy ===
/**
 What the setup wizard guarantees about the document it produces, proved
 from an invariant every step keeps, and how it reacts to individual
 answers.
 */
module WizardProperties {
  import opened Options
  import opened Text
  import opened Answers
  import opened Configuration
  import opened Wizard
  import opened Transitions
  import opened Invariant

  /** A yes/no question or the account-type menu given an answer it does
      not accept is asked again with nothing else changed. */
  lemma RejectedAnswerIgnored(env: Env, s: State, answer: string)
    requires || (IsYesNo(s.phase) && ParseYesNo(answer) == None)
             || (s.phase == AskAccountType && ParseAccountType(answer) == None)
    ensures Step(env, s, answer) == s
  {
    match s.phase
    case AskAccountType => AccountTypeStep(env, s, answer);
    case AskSlashCommands(_) => SlashCommandsStep(env, s, answer);
    case AskMessageCommands(_, _, _) => MessageCommandsStep(env, s, answer);
    case AskDirectMessages(_, _, _, _) => DirectMessagesStep(env, s, answer);
    case AskImportSession(_) => ImportSessionStep(env, s, answer);
    case AskFallback(_) => FallbackStep(env, s, answer);
    case AskAddAnotherAccount => AddAnotherAccountStep(env, s, answer);
    case AskAddOperators => AddOperatorsStep(env, s, answer);
    case AskAddAnotherOperator => AddAnotherOperatorStep(env, s, answer);
    case _ =>
  }

  lemma RunCons(env: Env, s: State, answer: string, rest: seq<string>)
    ensures Run(env, s, [answer] + rest) == Run(env, Step(env, s, answer), rest)
  {
    assert ([answer] + rest)[0] == answer && ([answer] + rest)[1..] == rest;
  }

  /** Rejected answers can be dropped from the input without changing where
      the wizard ends up. */
  lemma RejectedAnswerSkipped(env: Env, s: State, answer: string, rest: seq<string>)
    requires || (IsYesNo(s.phase) && ParseYesNo(answer) == None)
             || (s.phase == AskAccountType && ParseAccountType(answer) == None)
    ensures Run(env, s, [answer] + rest) == Run(env, s, rest)
  {
    RunCons(env, s, answer, rest);
    RejectedAnswerIgnored(env, s, answer);
  }

  /** A session path that is not an existing regular file (after `~`
      expansion) is asked for again with nothing changed. */
  lemma MissingSessionFileRepeats(env: Env, s: State, answer: string)
    requires s.phase.AskSessionPath?
    requires !env.isFile(ExpandTilde(Trim(answer), env.home))
    ensures Step(env, s, answer) == s
  {
    SessionPathStep(env, s, answer);
  }

  /** The fallback-login question is reached only right after a session
      file was accepted and imported under the account's session-file name. */
  lemma FallbackOnlyAfterImport(env: Env, s: State, answer: string)
    requires !s.phase.AskFallback? && Step(env, s, answer).phase.AskFallback?
    ensures s.phase.AskSessionPath?
    ensures env.isFile(ExpandTilde(Trim(answer), env.home))
    ensures Step(env, s, answer).imports
            == s.imports + [Import(ExpandTilde(Trim(answer), env.home), AppstateName(s.phase.sessionId))]
  {
    if s.phase.AskSessionPath? {
      SessionPathStep(env, s, answer);
    }
  }

  /** Declining the session import skips the fallback question: email,
      password and secret are asked for unconditionally. */
  lemma DeclinedImportForcesFallback(env: Env, s: State, answer: string)
    requires s.phase.AskImportSession? && ParseYesNo(answer) == Some(false)
    ensures Step(env, s, answer) == s.(phase := AskEmail(s.phase.sessionId))
  {
    ImportSessionStep(env, s, answer);
  }

  /** Feeding answers in two parts is feeding them at once. */
  lemma {:induction false} RunAppend(env: Env, s: State, xs: seq<string>, ys: seq<string>)
    ensures Run(env, s, xs + ys) == Run(env, Run(env, s, xs), ys)
    decreases |xs|
  {
    if xs == [] {
      assert xs + ys == ys;
    } else {
      assert (xs + ys)[0] == xs[0] && (xs + ys)[1..] == xs[1..] + ys;
      RunAppend(env, Step(env, s, xs[0]), xs[1..], ys);
    }
  }

  /** Once done, the wizard reads nothing more. */
  lemma {:induction false} DoneIsFinal(env: Env, s: State, answers: seq<string>)
    requires s.phase == Done
    ensures Run(env, s, answers) == s
    decreases |answers|
  {
    if answers != [] {
      DoneIsFinal(env, Step(env, s, answers[0]), answers[1..]);
    }
  }

  /** Accounts are only ever appended: whatever was collected stays, in
      order. */
  lemma {:induction false} AccountsOnlyAppended(env: Env, s: State, answers: seq<string>)
    ensures |s.accounts| <= |Run(env, s, answers).accounts|
    ensures Run(env, s, answers).accounts[..|s.accounts|] == s.accounts
    decreases |answers|
  {
    if answers != [] {
      var t := Step(env, s, answers[0]);
      AccountsOnlyAppended(env, t, answers[1..]);
      var u := Run(env, t, answers[1..]);
      assert u.accounts[..|s.accounts|] == u.accounts[..|t.accounts|][..|s.accounts|];
    }
  }

  /** Session files are only ever added: a copy once made stays, in order. */
  lemma {:induction false} ImportsOnlyAppended(env: Env, s: State, answers: seq<string>)
    ensures |s.imports| <= |Run(env, s, answers).imports|
    ensures Run(env, s, answers).imports[..|s.imports|] == s.imports
    decreases |answers|
  {
    if answers != [] {
      var t := Step(env, s, answers[0]);
      ImportsOnlyAppended(env, t, answers[1..]);
      var u := Run(env, t, answers[1..]);
      assert u.imports[..|s.imports|] == u.imports[..|t.imports|][..|s.imports|];
    }
  }

  /** The copies reported after some answers are still reported, first and
      in order, after any further answers, finished or not. */
  lemma CopiesStayReported(env: Env, answers: seq<string>, more: seq<string>)
    ensures |Setup(env, answers).imports| <= |Setup(env, answers + more).imports|
    ensures Setup(env, answers + more).imports[..|Setup(env, answers).imports|] == Setup(env, answers).imports
  {
    RunAppend(env, Start, answers, more);
    ImportsOnlyAppended(env, Run(env, Start, answers), more);
  }

  /** Every string trimmed, in the same order. */
  function TrimAll(ids: seq<string>): seq<string>
    decreases |ids|
  {
    if ids == [] then [] else [Trim(ids[0])] + TrimAll(ids[1..])
  }

  lemma TrimAllCons(ids: seq<string>)
    requires |ids| > 0
    ensures TrimAll(ids) == [Trim(ids[0])] + TrimAll(ids[1..])
  {
  }

  /** The answers of the operator loop: each id followed by the reply to
      "add another?", a yes from `replies` after every id but the last and
      `no` after the last. */
  function OperatorAnswers(ids: seq<string>, replies: seq<string>, no: string): seq<string>
    requires |ids| > 0 && |replies| == |ids| - 1
    decreases |ids|
  {
    if |ids| == 1 then [ids[0], no] else [ids[0], replies[0]] + OperatorAnswers(ids[1..], replies[1..], no)
  }

  /** The operator loop keeps every id typed, trimmed, in entry order, and
      ends the wizard; any spelling of yes may be used in each round. */
  lemma {:induction false} OperatorDialogue(env: Env, s: State, ids: seq<string>, replies: seq<string>, no: string)
    requires s.phase == AskOperatorId && |ids| > 0 && |replies| == |ids| - 1
    requires forall i :: 0 <= i < |replies| ==> SaysYes(replies[i])
    requires SaysNo(no)
    ensures Run(env, s, OperatorAnswers(ids, replies, no)) == s.(phase := Done, operators := s.operators + TrimAll(ids))
    decreases |ids|
  {
    if |ids| == 1 {
      ReadsNo(no);
      OperatorDialogueLast(env, s, ids, replies, no);
    } else {
      var s2 := s.(operators := s.operators + [Trim(ids[0])]);
      assert forall i :: 0 <= i < |replies[1..]| ==> SaysYes(replies[1..][i]) by {
        forall i | 0 <= i < |replies[1..]| ensures SaysYes(replies[1..][i]) {
          assert replies[1..][i] == replies[i + 1];
        }
      }
      OperatorDialogue(env, s2, ids[1..], replies[1..], no);
      ReadsYes(replies[0]);
      OperatorDialogueNext(env, s, ids, replies, no);
      OperatorsAppended(s, ids);
    }
  }

  /** Appending the first id and then the trimmed rest appends all of them. */
  lemma OperatorsAppended(s: State, ids: seq<string>)
    requires |ids| > 0
    ensures var s2 := s.(operators := s.operators + [Trim(ids[0])]);
            s2.(phase := Done, operators := s2.operators + TrimAll(ids[1..]))
            == s.(phase := Done, operators := s.operators + TrimAll(ids))
  {
    TrimAllCons(ids);
    assert s.operators + [Trim(ids[0])] + TrimAll(ids[1..]) == s.operators + TrimAll(ids);
  }

  /** The last operator id, followed by declining to add another. */
  lemma OperatorDialogueLast(env: Env, s: State, ids: seq<string>, replies: seq<string>, no: string)
    requires s.phase == AskOperatorId && |ids| == 1 && replies == [] && ParseYesNo(no) == Some(false)
    ensures Run(env, s, OperatorAnswers(ids, replies, no)) == s.(phase := Done, operators := s.operators + TrimAll(ids))
  {
    OperatorStep(env, s, ids[0], no);
    assert TrimAll(ids) == [Trim(ids[0])] + TrimAll([]);
  }

  /** One round of the operator loop hands the remaining rounds the state
      with that id appended. */
  lemma OperatorDialogueNext(env: Env, s: State, ids: seq<string>, replies: seq<string>, no: string)
    requires s.phase == AskOperatorId && |ids| > 1 && |replies| == |ids| - 1
    requires ParseYesNo(replies[0]) == Some(true)
    ensures Run(env, s, OperatorAnswers(ids, replies, no))
            == Run(env, s.(operators := s.operators + [Trim(ids[0])]), OperatorAnswers(ids[1..], replies[1..], no))
  {
    assert OperatorAnswers(ids, replies, no) == [ids[0], replies[0]] + OperatorAnswers(ids[1..], replies[1..], no);
    OperatorRound(env, s, ids[0], replies[0], OperatorAnswers(ids[1..], replies[1..], no));
  }

  /** Giving an operator id and asking for another leaves the remaining answers to the next round. */
  lemma OperatorRound(env: Env, s: State, a: string, yes: string, more: seq<string>)
    requires s.phase == AskOperatorId && ParseYesNo(yes) == Some(true)
    ensures Run(env, s, [a, yes] + more) == Run(env, s.(operators := s.operators + [Trim(a)]), more)
  {
    RunAppend(env, s, [a, yes], more);
    OperatorStep(env, s, a, yes);
  }

  /** One operator id followed by the answer to "add another?". */
  lemma OperatorStep(env: Env, s: State, a: string, reply: string)
    requires s.phase == AskOperatorId && ParseYesNo(reply).Some?
    ensures Run(env, s, [a, reply])
            == s.(phase := if ParseYesNo(reply).value then AskOperatorId else Done, operators := s.operators + [Trim(a)])
  {
    OperatorIdStep(env, s, a);
    AddAnotherOperatorStep(env, s.(phase := AskAddAnotherOperator, operators := s.operators + [Trim(a)]), reply);
    RunPair(env, s, a, reply);
  }

  lemma RunOne(env: Env, s: State, x: string)
    ensures Run(env, s, [x]) == Step(env, s, x)
  {
    assert [x][1..] == [];
  }

  lemma RunPair(env: Env, s: State, x: string, y: string)
    ensures Run(env, s, [x, y]) == Step(env, Step(env, s, x), y)
  {
    assert [x, y] == [x] + [y];
    RunCons(env, s, x, [y]);
    RunOne(env, Step(env, s, x), y);
  }

  /** Declining operators ends the wizard with no operator ids. */
  lemma DeclinedOperators(env: Env, s: State, no: string)
    requires Inv(env, s) && s.phase == AskAddOperators && SaysNo(no)
    ensures Run(env, s, [no]) == s.(phase := Done)
    ensures Run(env, s, [no]).operators == []
  {
    ReadsNo(no);
    RunOne(env, s, no);
    AddOperatorsStep(env, s, no);
  }

  /** Agreeing to add operators and then typing ids, each but the last
      followed by a yes, ends the wizard with exactly those ids, trimmed and
      in the order typed. */
  lemma OperatorsEntered(env: Env, s: State, yes: string, ids: seq<string>, replies: seq<string>, no: string)
    requires Inv(env, s) && s.phase == AskAddOperators && SaysYes(yes)
    requires |ids| > 0 && |replies| == |ids| - 1
    requires forall i :: 0 <= i < |replies| ==> SaysYes(replies[i])
    requires SaysNo(no)
    ensures Run(env, s, [yes] + OperatorAnswers(ids, replies, no)) == s.(phase := Done, operators := TrimAll(ids))
  {
    OperatorsFromNone(env, s, yes, ids, replies, no);
  }

  /** The same dialogue, from a state that has no operator ids yet. */
  lemma OperatorsFromNone(env: Env, s: State, yes: string, ids: seq<string>, replies: seq<string>, no: string)
    requires s.operators == [] && s.phase == AskAddOperators && SaysYes(yes)
    requires |ids| > 0 && |replies| == |ids| - 1
    requires forall i :: 0 <= i < |replies| ==> SaysYes(replies[i])
    requires SaysNo(no)
    ensures Run(env, s, [yes] + OperatorAnswers(ids, replies, no)) == s.(phase := Done, operators := TrimAll(ids))
  {
    ReadsYes(yes);
    AgreeToOperators(env, s, yes, OperatorAnswers(ids, replies, no));
    OperatorDialogue(env, s.(phase := AskOperatorId), ids, replies, no);
    assert s.operators + TrimAll(ids) == TrimAll(ids);
  }

  /** A yes to "add operators?" leads to the first operator id question. */
  lemma AgreeToOperators(env: Env, s: State, yes: string, rest: seq<string>)
    requires s.phase == AskAddOperators && ParseYesNo(yes) == Some(true)
    ensures Run(env, s, [yes] + rest) == Run(env, s.(phase := AskOperatorId), rest)
  {
    RunCons(env, s, yes, rest);
    AddOperatorsStep(env, s, yes);
  }
}
